=== FILE: README.md ===
# Aurora platform event pipeline, in Dafny

This project models the part of the Aurora engine that carries input from
the window system to user code, plus two small decoders that sit beside it.

- **X11 backend** (`x11_platform.dfy`, module `X11`): the `X11Platform`
  class.
  - Native X events become portable `Event`s and are queued in a FIFO.
  - `hasEvents` and `nextEvent` read that queue.
  - A registry maps native window ids to `Window` objects.
  - The display and visual lifecycle (`initialize`/`shutdown`) is modelled,
    along with the GLX context calls.
  - Xlib and GLX are not part of this model. What they return is a
    parameter. Every call with an effect is appended to a call log, so
    "closed twice" and "freed an undefined pointer" can be stated.
- **Event vocabulary** (`event.dfy`, module `Events`): `EventType`,
  `MouseButton`, `KeyCode`, `KeyModifiers` and the `Event` record. The
  untyped union becomes a tagged payload. `KeyCode` and `MouseButton` are
  32-bit newtypes, because a conversion can produce a value no enumerator
  names.
- **Window handle** (`window.dfy`, module `Windows`): the `Config`
  defaults, the native-handle slot and the five callback slots.
- **Application** (`application.dfy`, module `App`): the `Application`
  class.
  - `processEvents` pumps once, then drains the queue, dispatching
    `Quit`, `WindowClose` and `WindowResize`.
  - `quit` records the exit code.
  - `onFrame` and `update` manage the ordered frame callbacks.
  - `run` performs passes of processEvents, then update, then render.
  - Callbacks are identities. Invoking one appends an `Invocation` to a
    log.
- **OpenGL shader** (`gl_shader.dfy`, module `GL`): the `OpenGLShader`
  class.
  - `compileShader` and `createProgram` are modelled as GL call
    sequences.
  - The uniform-location cache is a memoising map in front of the
    driver. The driver's answers are parameters, and its locations are a
    function.
  - The class invariant ties the cache and the "not found" warnings to
    the call log. As a result, no name is ever queried or warned about
    twice.
- **`Color::fromHex`** (`types.dfy`, module `Types`): the four 8-bit
  channel numerators and their round trip. The division by 255 is taken
  exactly, over the reals.

`Wrappers` (`wrappers.dfy`) holds `Option` and `Result`. `Result` models
the exception thrown by `Application::initialize`; `Option` models null
results.

Events whose native window is not registered (never created, or already
destroyed) are not dropped; they are queued with a null window
(`X11.UnregisteredWindowIsNull`).

## Model

| member | source | states |
|---|---|---|
| Types.ToU32 | src/platform/x11/X11Platform.cpp:137-138 | the conversion of the signed configure size to `u32` is the identity on in-range values and otherwise congruent modulo 2^32 |
| Types.ToI32 | src/platform/x11/X11Platform.cpp:151 | the conversion of the unsigned X button to the `int`-backed enum is the identity below 2^31 and congruent modulo 2^32 otherwise |
| Types.Channels | include/aurora/core/Types.hpp:54-57 | the four shifted-and-masked bytes, red highest, reassemble the word: r·2^24 + g·2^16 + b·2^8 + a == hex |
| Types.ChannelsOfPack | include/aurora/core/Types.hpp:52-59 | splitting a packed word gives the same four numerators back, so extraction is the inverse of packing |
| Types.Unit | include/aurora/core/Types.hpp:54-57 | dividing a numerator by 255 gives a value in [0, 1] that is a whole number of 255ths |
| Types.FromHex | include/aurora/core/Types.hpp:52-59 | every channel is in [0, 1] and a whole number of 255ths, and the four numerators reassemble `hex` |
| Types.FromHexOpaqueBlack | include/aurora/core/Types.hpp:49-59 | `fromHex(0xFF)` has numerators (0,0,0,255) and equals the default `Color()` |
| Windows.DefaultConfig | include/aurora/platform/Window.hpp:22-32 | the default config is at (-1,-1), the centring sentinel, and is 800x600, Normal, decorated, resizable, opaque and not on top |
| Windows.Window.constructor | include/aurora/platform/Window.hpp:34-61 | a new window keeps its config, has a null native handle and no callback set |
| Windows.Window.SetNativeHandle | include/aurora/platform/Window.hpp:39-40 | `nativeHandle()` returns the last value set |
| Windows.Window.Assign | include/aurora/platform/Window.hpp:53-57 | assigning one callback slot sets it and leaves the other four unchanged |
| Events.KeyOf | include/aurora/platform/Event.hpp:48-77 | any enumerator found for a value has exactly that value |
| Events.KeyOfCode | include/aurora/platform/Event.hpp:48-77 | every enumerator is found again from its value |
| Events.CodeInjective | include/aurora/platform/Event.hpp:48-77 | no two `KeyCode` enumerators share a value |
| Events.KeyCodeGroups | include/aurora/platform/Event.hpp:48-77 | Unknown is 0, letters are 65..90, digits 48..57, and F1 = 256 with the special keys consecutive up to 292; each group is characterised both ways |
| Events.Mask | include/aurora/platform/Event.hpp:79-85 | OR-ing the modifier bits stays below 16 and decodes back to the same flags, so the combination is injective |
| Events.EventConstructors | include/aurora/platform/Event.hpp:87-106 | `Event()` has kind None and a null window; `Event(t)` has kind t and a null window; neither writes a union member |
| X11.Placement | src/platform/x11/X11Platform.cpp:90-91 | a negative coordinate is placed at 0, a non-negative one is kept |
| X11.ConvertKeyCode | src/platform/x11/X11Platform.cpp:212-217 | the result is 0, a value in '1'..':', or a letter 'A'..'Z' |
| X11.ConvertKeyCodeNames | src/platform/x11/X11Platform.cpp:212-217 | 24..32 give digits '1'..'9'; 33 gives 58, which no enumerator has; 38..63 give 'A'..'Z'; every other code gives Unknown |
| X11.ConvertModifiers | src/platform/x11/X11Platform.cpp:219-225 | Shift, Ctrl and Alt are set exactly when the X Shift, Control and Mod1 bits are; Super never is; the result is below 8 |
| X11.Registered | src/platform/x11/X11Platform.cpp:128-132 | the window is non-null exactly when the id is registered, and it is then the window registered for that id |
| X11.Translate | src/platform/x11/X11Platform.cpp:127-163 | exactly the configure, motion, button and key events produce an event, tagged, whose window is the registered one or null |
| X11.TranslatePayloads | src/platform/x11/X11Platform.cpp:135-162 | a resize carries the configure size converted to `u32` (modulo 2^32, so unchanged when in range), a motion its coordinates, a button press the raw button converted to the `i32`-backed enum (modulo 2^32, unchanged below 2^31), a key press the converted code and modifiers with `repeat` false |
| X11.UncheckedButtonCast | src/platform/x11/X11Platform.cpp:149-153 | the raw X button is cast without a check: buttons 4 and 5 (the wheel) arrive as X1 and X2, and button 6 has no enumerator |
| X11.UnregisteredWindowIsNull | src/platform/x11/X11Platform.cpp:128-132 | an event for an unregistered id is still produced, with a null window |
| X11.Translated | src/platform/x11/X11Platform.cpp:122-165 | a batch yields at most one event per native event, each tagged and each naming a registered window or null |
| X11.TranslatedAppend | src/platform/x11/X11Platform.cpp:122-165 | translating a batch distributes over concatenation |
| X11.TranslatedInOrder | src/platform/x11/X11Platform.cpp:122-165 | arrival order is kept: the i-th native event's translation comes right after those of the events before it |
| X11.TranslatedKinds | src/platform/x11/X11Platform.cpp:134-163 | only WindowResize, MouseMove, MouseDown and KeyDown events come out of the backend |
| X11.X11Platform.constructor | src/platform/x11/X11Platform.cpp:28 | corrected constructor: no display, a null visual pointer, an empty registry, queue and log; the state is sound |
| X11.X11Platform.AsWritten | src/platform/x11/X11Platform.cpp:28 | the constructor as written leaves the visual pointer indeterminate |
| X11.X11Platform.Initialize | src/platform/x11/X11Platform.cpp:31-62 | corrected `initialize`: succeeds iff both a display and a visual are found; on visual failure it closes the display and also forgets it; soundness is preserved |
| X11.X11Platform.InitializeAsWritten | src/platform/x11/X11Platform.cpp:31-62 | `initialize` as written: on visual failure the display is closed but `m_display` still holds it |
| X11.X11Platform.Shutdown | src/platform/x11/X11Platform.cpp:64-73 | frees the visual and closes the display only if held, nulls both, so a second call does nothing; soundness is preserved |
| X11.X11Platform.CreateWindow | src/platform/x11/X11Platform.cpp:75-114 | the new window's handle is the X id, the registry gains id to window, coordinates are placed, a dock gets the dock type, then the window is mapped and flushed |
| X11.X11Platform.DestroyWindow | src/platform/x11/X11Platform.cpp:116-120 | exactly the window's own id leaves the registry, and the X window is destroyed |
| X11.X11Platform.PumpEvents | src/platform/x11/X11Platform.cpp:122-165 | the old queue stays as a prefix and the translations of the pending events are appended in arrival order |
| X11.X11Platform.PumpOne | src/platform/x11/X11Platform.cpp:127-163 | one native event appends its translation, or nothing for another type |
| X11.X11Platform.HasEvents | src/platform/x11/X11Platform.cpp:167-169 | true iff the queue is non-empty |
| X11.X11Platform.NextEvent | src/platform/x11/X11Platform.cpp:171-178 | returns the front and leaves the tail (FIFO); on an empty queue it returns the None event and the queue stays empty |
| X11.X11Platform.CreateGLContext | src/platform/x11/X11Platform.cpp:190-195 | creates a context and makes it current on the window's native id, returning it |
| X11.X11Platform.DestroyGLContext | src/platform/x11/X11Platform.cpp:197-199 | destroys the given context |
| X11.X11Platform.MakeCurrent | src/platform/x11/X11Platform.cpp:201-204 | makes the context current on the window's native id |
| X11.X11Platform.SwapBuffers | src/platform/x11/X11Platform.cpp:206-209 | swaps the buffers of the window's native id |
| X11.DoubleCloseAsWritten | src/platform/x11/X11Platform.cpp:55-72 | as written, a visual failure followed by `shutdown` closes display 1 twice, so the call log is not well paired |
| X11.FreeIndeterminateAsWritten | src/platform/x11/X11Platform.cpp:28-68 | as written, a failed `XOpenDisplay` followed by `shutdown` passes the uninitialised visual pointer to `XFree` |
| X11.ShutdownAfterInitialize | src/platform/x11/X11Platform.cpp:31-73 | with the corrections, any server answer followed by one or two `shutdown`s leaves a well-paired call log |
| App.Handle | src/core/Application.cpp:77-96 | an event invokes a callback iff it is a close or a resize whose window is non-null and whose slot is set, and then exactly one: the window's `onClose` for a close, its `onResize` with the event's width and height for a resize |
| App.HandleAllSources | src/core/Application.cpp:82-92 | every callback invoked while handling a sequence of events was asked for by one of them: that event's own window and slot, with the event's size for a resize; no frame callback runs during dispatch |
| App.HandleAllFrame | src/core/Application.cpp:82-92 | dispatch depends only on the callback slots of the windows the events name |
| App.X11EventsOnlyResize | src/core/Application.cpp:77-92 | the X11 backend's events never quit and only ever reach `onResize` callbacks |
| App.FrameCalls | src/core/Application.cpp:100-104 | one frame invocation per registered callback, in registration order, all with the same delta |
| App.Application.constructor | src/core/Application.cpp:12-16 | a new application is not running, has exit code 0, no frame callbacks and no invocations |
| App.Application.Create | src/core/Application.cpp:23-29 | construction fails, with the exception's message, exactly when the platform's `initialize` fails |
| App.Application.Quit | src/core/Application.cpp:66-69 | sets the exit code (default 0), stops the loop and changes nothing else |
| App.Application.OnFrame | src/core/Application.cpp:110-112 | appends the callback after the existing ones |
| App.Application.Update | src/core/Application.cpp:100-104 | invokes every frame callback once, in registration order, with the given delta |
| App.Application.ProcessEvents | src/core/Application.cpp:71-98 | the queue ends empty; every queued and pumped event is handled in order; a Quit anywhere stops the loop with code 0 |
| App.Application.Drain | src/core/Application.cpp:74-97 | the dequeue loop handles the whole old queue in order and empties it |
| App.Application.DrainOne | src/core/Application.cpp:75-96 | one pass dequeues and handles the next event, so the state is that after handling one more event of the drained queue in order |
| App.Application.HandleEvent | src/core/Application.cpp:77-96 | Quit calls `quit()`; close and resize invoke their guarded callbacks; other kinds do nothing |
| App.Application.RunIteration | src/core/Application.cpp:53-60 | one pass handles the events before the frame callbacks and leaves the queue empty; a `quit(c)` from a frame callback stops the loop with code c, taking effect after any `Quit` event of the pass |
| App.Application.Run | src/core/Application.cpp:37-64 | `running` is set on entry, overriding an earlier quit. Pass j drains what was queued before the first pass (pass 0 only), then the translation of its pending input. The loop stops at the first pass that drains a `Quit` event or whose frame callback quits, and no earlier pass does. The returned code is the one that pass requested, or 0 for a `Quit` event alone. `None` means every pass ran. The log grows by, for each pass in order, the callbacks its events invoked and then every frame callback with its delta |
| App.Application.RunPass | src/core/Application.cpp:43-61 | one pass of the loop drains the queue left before it followed by its input's translation; the loop stops exactly when that drains a `Quit` event or a frame callback quits; the log grows by what handling those events invoked and then the frame callbacks; the loop state over all passes so far is kept |
| App.Application.RanMeans | src/core/Application.cpp:37-64 | the loop state after some passes means: every earlier pass ran without stopping, the loop runs iff the last pass did not stop it, a stopped loop holds that pass's requested code, and the log is the passes' invocations in order |
| App.Application.PassKeepsRan | src/core/Application.cpp:43-61 | a pass that emptied the queue, handled what it drained and called the frame callbacks extends the loop state by that pass |
| App.RanStep | src/core/Application.cpp:43-61 | a pass taken while running extends the loop's values: it stops the loop exactly when it quits, the exit code is the one it requested, and the log grows by that pass's invocations |
| App.PassesSnoc | src/core/Application.cpp:53-57 | one more pass appends what handling its events invoked, then the frame callbacks with its delta, to the log of the earlier passes |
| App.HandledFrame | src/core/Application.cpp:82-92 | what the passes' events invoked depends only on the callback slots of the windows they name, so state changes that leave those windows alone keep it |
| App.Application.Shutdown | src/core/Application.cpp:31-35 | shuts the platform down, preserving its soundness |
| GL.Compiled | src/graphics/opengl/GLShader.cpp:57-68 | the shader id on success, 0 on failure |
| GL.CompileDeletesOnlyOnFailure | src/graphics/opengl/GLShader.cpp:55-66 | a compile deletes its shader, and reads its info log, exactly when it fails |
| GL.CompileDeletesItsShader | src/graphics/opengl/GLShader.cpp:49-69 | a compile creates only its own shader, which it deletes or hands back |
| GL.ProgramAttachesCompiledStages | src/graphics/opengl/GLShader.cpp:71-85 | exactly the two compile results are attached to the program, 0 for a failed stage |
| GL.ProgramDeletesEveryShader | src/graphics/opengl/GLShader.cpp:71-85 | every shader created while building the program is deleted |
| GL.ProgramQueriesNoUniform | src/graphics/opengl/GLShader.cpp:71-85 | building the program queries no uniform and warns about none |
| GL.QueriedInLog | src/graphics/opengl/GLShader.cpp:41 | a name counts as queried exactly when the log holds a `glGetUniformLocation` of the program for it |
| GL.CachedAgrees | src/graphics/opengl/GLShader.cpp:37-47 | the cache holds exactly the queried names, each with the driver's location |
| GL.NotFoundExact | src/graphics/opengl/GLShader.cpp:42-45 | the warned names are exactly the queried ones the driver reports as -1, each at most once |
| GL.MissKeepsCoherent | src/graphics/opengl/GLShader.cpp:41-46 | a miss (one query, the answer cached, a warning iff -1) keeps the cache coherent with the log |
| GL.OtherCallKeepsCoherent | src/graphics/opengl/GLShader.cpp:21-35 | any GL call other than a uniform query keeps the cache coherent |
| GL.OpenGLShader.constructor | src/graphics/opengl/GLShader.cpp:5-7 | the program id is the one `createProgram` returns, the cache starts empty and coherent |
| GL.OpenGLShader.CompileShader | src/graphics/opengl/GLShader.cpp:49-69 | returns the shader id, or 0 after a failed compile, which is reported and whose shader is deleted |
| GL.OpenGLShader.CreateProgram | src/graphics/opengl/GLShader.cpp:71-85 | returns the program id whatever the compiles and the link reported, after the full create/attach/link/validate/delete sequence |
| GL.OpenGLShader.Bind | src/graphics/opengl/GLShader.cpp:13-15 | uses the program, and the uniform cache stays coherent with the query log |
| GL.OpenGLShader.Unbind | src/graphics/opengl/GLShader.cpp:17-19 | uses program 0, and the uniform cache stays coherent with the query log |
| GL.OpenGLShader.Delete | src/graphics/opengl/GLShader.cpp:9-11 | deletes the program, and the uniform cache stays coherent with the query log |
| GL.OpenGLShader.GetUniformLocation | src/graphics/opengl/GLShader.cpp:37-47 | returns the driver's location. A hit changes nothing. A miss queries once, caches the answer including -1, and warns iff it is -1. Other entries are kept and the cache stays coherent |
| GL.OpenGLShader.SetUniform | src/graphics/opengl/GLShader.cpp:21-35 | looks the location up as above, then uploads the value there, -1 included |

## Left out

- Renderer and Mesh are not part of this model. Their headers declare
  the drawing operations without bodies; only trivial accessors such as
  `vertexCount` are inline.
- The animation classes are not part of this model. `Easing`'s static
  functions have inline bodies, but they are floating-point formulas
  (powers, `sin`, `cos`, `sqrt`). Most of the method bodies of `Spring`
  and `Timeline` are not shown, apart from accessors, setters and
  `PropertyAnimation::onAnimate`'s interpolation. That interpolation is
  floating point as well.
- The demo program `examples/01_hello_window/main.cpp` is not part of this
  model. It is example code that uses the application: its frame callback
  computes a float HSV colour and draws with immediate-mode GL.
- Xlib, GLX and GL are foreign code. Their results (display, visual,
  window, context, program and shader ids, compile status, info log,
  uniform locations, pending events) are parameters. Their effects are
  entries in a call log.
- Several Xlib calls are left out of that log because nothing in the
  model depends on them:
  - `XCreateColormap` and the window attributes.
  - `XInternAtom` and `XChangeProperty`. The dock property is the single
    entry `XSetDockType`.
  - `DefaultScreen` and `RootWindow`.
- `displayCount`, `displayBounds` and `name` are constant or pure
  queries of the X server. They are not modelled.
- The `X11Window` subclass adds no state: its constructor forwards to
  `Window`'s, and its overrides of the window operations (`show`, `hide`,
  `close`, `setTitle`, `setPosition`, `setSize`, `setOpacity`) have empty
  bodies. The model uses the base `Window` and leaves those operations
  out, since they do nothing.
- The bodies of `Window`'s constructor and its other methods are not
  part of this model. The constructor is modelled as storing its
  configuration, with the member initialisers shown.
- Floating point: `f32`/`f64` values are reals. This covers mouse
  coordinates, frame times and the `/ 255.0f` of `fromHex`, so rounding
  is not modelled.
- User callbacks are identities. Calling one appends an invocation to a
  log. Their own effects are not modelled, except for a `quit` from a
  frame callback, which is part of each pass's input.
- App.Application.RunIteration: a `quit` called by an event callback
  (such as an `onClose` that quits) is not modelled. Only a quit from a
  frame callback is, and it takes effect after the whole pass's events.
  In the program, an event callback's `quit(c)` followed by a `Quit` event
  in the same batch would end with 0.
- `run`'s timing and frame-rate bookkeeping (`std::chrono`, `m_fps`,
  `m_frameTime`) are not modelled; each pass receives its delta time as
  input. `render` has an empty body and is not modelled.
- App.Application.Run: runs over a finite list of passes, one input
  each. `None` means the loop would go on; the `while (m_running)` loop
  itself need not end. The X11 backend never produces a `Quit` event
  (`App.X11EventsOnlyResize`), so a `Quit` event can stop the loop only
  when it was queued before `run`, and otherwise only a frame callback's
  `quit` stops it.
- App.Application.Create and App.Application.Shutdown use the corrected
  platform (X11.X11Platform.constructor and X11.X11Platform.Initialize);
  the as-written double close is shown only by X11.DoubleCloseAsWritten.
- `s_instance`, the global application pointer, is not modelled.
- `Application` holds the X11 platform directly. `IPlatform::create`
  selects it at compile time on X11 builds. The other backends are not
  part of this model.
- The info-log buffer (`new char[length]`) is not modelled; the log text
  is a parameter. The pointer passed by the vector and matrix `setUniform`
  overloads is not modelled either; the value itself is logged.
- The `position`, `scroll` and `text` union members are modelled as
  payloads. No event the X11 backend produces carries them.
- X11.X11Platform.CreateWindow and CreateGLContext require an
  initialised platform, with both a display and a visual. The source
  dereferences `m_visualInfo` in `createWindow` and passes it to
  `glXCreateContext`.
  - DestroyWindow, PumpEvents, DestroyGLContext, MakeCurrent and
    SwapBuffers require a display, which the source passes to Xlib.
  - Both calls are undefined when the pointer is null.
- X11.X11Platform.CreateWindow, X11.X11Platform.DestroyWindow and
  App.Application.ProcessEvents do not model window ownership or
  lifetime. The registry and queued events hold the raw `Window*` of a
  `shared_ptr` handed to the caller. If the caller releases it, or an
  event queued before `destroyWindow` is dispatched after the object is
  gone, `processEvents` dereferences a dangling pointer. Dafny references
  cannot dangle, so the model cannot show this.

## Findings

| source | as written | input that shows it | evidently intended | confidence | as-written member | corrected member |
|---|---|---|---|---|---|---|
| src/platform/x11/X11Platform.cpp:55-72 | when no visual is found, `initialize` closes the display but leaves `m_display` pointing at it, so `shutdown` (also run by the destructor) closes it again | `XOpenDisplay` returns display 1 and `glXChooseVisual` returns null; then `shutdown` | reset `m_display` after closing it, so each display is closed once | not executed | X11.DoubleCloseAsWritten | X11.X11Platform.Initialize |
| src/platform/x11/X11Platform.cpp:28 | the constructor initialises only `m_display`, so `shutdown` after a failed `XOpenDisplay` reads the uninitialised `m_visualInfo` and may pass it to `XFree` | `XOpenDisplay` returns null; then `shutdown` | initialise `m_visualInfo` to null as well | not executed | X11.FreeIndeterminateAsWritten | X11.X11Platform.constructor |

=== FILE: application.dfy ===
/** The frame driver of src/core/Application.cpp: event dispatch, quitting
    and the ordered frame callbacks, over the X11 backend. User callbacks
    are identities; invoking one appends it to an invocation log. */
module App {
  import opened Types
  import W = Wrappers
  import opened Windows
  import opened Events
  import opened X11

  /** The identity of a registered `std::function<void(f64)>`. */
  type FrameCallbackId = nat

  /** A user callback invoked, with its arguments. */
  datatype Invocation =
    | Closed(window: Window, callback: CallbackId)
    | Resized(window: Window, callback: CallbackId, width: u32, height: u32)
    | Frame(callback: FrameCallbackId, deltaTime: real)

  /** Invocation `v` is what event `e` asks for: the window's `onClose` for
      a close, its `onResize` with the event's size for a resize. */
  predicate Invokes(e: Event, v: Invocation)
    reads e.window
  {
    match v
    case Closed(w, callback) =>
      e.kind == WindowClose && e.window == w && w.onClose == W.Some(callback)
    case Resized(w, callback, width, height) =>
      e.kind == WindowResize && e.window == w && w.onResize == W.Some(callback) && e.payload == Size(width, height)
    case Frame(_, _) => false
  }

  /** What handling one dequeued event invokes: `onClose` for a close and
      `onResize(width, height)` for a resize, each only when the window is
      non-null and the slot is set; nothing for any other kind. */
  function Handle(e: Event): (r: seq<Invocation>)
    requires Tagged(e)
    reads e.window
    ensures |r| <= 1
    ensures r != [] <==> (e.window != null
      && ((e.kind == WindowClose && e.window.onClose.Some?) || (e.kind == WindowResize && e.window.onResize.Some?)))
    ensures r != [] && e.kind == WindowClose ==> r == [Closed(e.window, e.window.onClose.value)]
    ensures r != [] && e.kind == WindowResize ==>
      r == [Resized(e.window, e.window.onResize.value, e.payload.width, e.payload.height)]
    ensures forall v :: v in r ==> Invokes(e, v)
  {
    match e.kind
    case WindowClose =>
      if e.window != null && e.window.onClose.Some? then [Closed(e.window, e.window.onClose.value)] else []
    case WindowResize =>
      if e.window != null && e.window.onResize.Some? then
        [Resized(e.window, e.window.onResize.value, e.payload.width, e.payload.height)]
      else []
    case _ => []
  }

  /** The windows a sequence of events refers to. */
  function WindowsOf(es: seq<Event>): set<Window>
  {
    set i | 0 <= i < |es| && es[i].window != null :: es[i].window
  }

  /** What handling a sequence of events in dequeue order invokes. */
  function HandleAll(es: seq<Event>): seq<Invocation>
    requires forall i :: 0 <= i < |es| ==> Tagged(es[i])
    reads WindowsOf(es)
  {
    if es == [] then []
    else
      assert es[|es| - 1].window != null ==> es[|es| - 1].window in WindowsOf(es);
      HandleAll(es[..|es| - 1]) + Handle(es[|es| - 1])
  }

  /** Every callback invoked while handling a sequence of events was asked
      for by one of those events: the slot of the event's own window, with
      the event's size for a resize. No frame callback runs during dispatch. */
  lemma {:induction false} HandleAllSources(es: seq<Event>)
    requires forall i :: 0 <= i < |es| ==> Tagged(es[i])
    ensures forall v :: v in HandleAll(es) ==> exists i :: 0 <= i < |es| && Invokes(es[i], v)
  {
    if es != [] {
      var n := |es| - 1;
      var init := es[..n];
      HandleAllSources(init);
      forall v | v in HandleAll(es) ensures exists i :: 0 <= i < |es| && Invokes(es[i], v) {
        if v in HandleAll(init) {
          var i :| 0 <= i < |init| && Invokes(init[i], v);
          assert init[i] == es[i];
        } else {
          assert v in Handle(es[n]);
          assert Invokes(es[n], v);
        }
      }
    }
  }

  /** Handling reads nothing but the callback slots of the windows the
      events refer to. */
  twostate lemma {:induction false} HandleAllFrame(es: seq<Event>)
    requires forall i :: 0 <= i < |es| ==> Tagged(es[i])
    requires forall w :: w in WindowsOf(es) ==> unchanged(w)
    ensures old(HandleAll(es)) == HandleAll(es)
  {
    if es != [] {
      var init := es[..|es| - 1];
      assert WindowsOf(init) <= WindowsOf(es) by {
        forall w | w in WindowsOf(init) ensures w in WindowsOf(es) {
          var i :| 0 <= i < |init| && init[i].window == w;
          assert es[i].window == w;
        }
      }
      HandleAllFrame(init);
      if es[|es| - 1].window != null {
        assert es[|es| - 1].window in WindowsOf(es);
      }
    }
  }

  /** A prefix refers to no window the whole sequence does not. */
  lemma WindowsOfPrefix(es: seq<Event>, k: nat)
    requires k <= |es|
    ensures WindowsOf(es[..k]) <= WindowsOf(es)
  {
    forall w | w in WindowsOf(es[..k]) ensures w in WindowsOf(es) {
      var i :| 0 <= i < k && es[..k][i].window == w;
      assert es[i].window == w;
    }
  }

  /** Handling one more event of a sequence appends what that event invokes. */
  lemma HandleAllStep(es: seq<Event>, k: nat)
    requires k < |es| && forall i :: 0 <= i < |es| ==> Tagged(es[i])
    ensures HandleAll(es[..k + 1]) == HandleAll(es[..k]) + Handle(es[k])
  {
    assert es[..k + 1][..k] == es[..k];
  }

  /** Some event of the sequence is a `Quit`. */
  predicate QuitIn(es: seq<Event>)
  {
    exists i :: 0 <= i < |es| && es[i].kind == EventType.Quit
  }

  /** A `Quit` among the first `k + 1` events is one among the first `k` or the `k`-th. */
  lemma QuitInStep(es: seq<Event>, k: nat)
    requires k < |es|
    ensures QuitIn(es[..k + 1]) <==> QuitIn(es[..k]) || es[k].kind == EventType.Quit
  {
    if QuitIn(es[..k + 1]) && !QuitIn(es[..k]) {
      var j :| 0 <= j < k + 1 && es[..k + 1][j].kind == EventType.Quit;
      assert j == k;
    }
    if es[k].kind == EventType.Quit {
      assert es[..k + 1][k] == es[k];
    }
    if QuitIn(es[..k]) {
      var j :| 0 <= j < k && es[..k][j].kind == EventType.Quit;
      assert es[..k + 1][j] == es[..k][j];
    }
  }

  /** The events of the X11 backend never quit and never invoke `onClose`:
      the only callbacks they reach are `onResize` ones. */
  lemma {:induction false} X11EventsOnlyResize(es: seq<Event>)
    requires forall e :: e in es ==> Tagged(e) && e.kind in {WindowResize, MouseMove, MouseDown, KeyDown}
    ensures !QuitIn(es)
    ensures forall v :: v in HandleAll(es) ==> v.Resized?
  {
    if es != [] {
      X11EventsOnlyResize(es[..|es| - 1]);
      assert es[|es| - 1] in es;
    }
  }

  /** Every frame callback once, in registration order, with the same delta. */
  function FrameCalls(callbacks: seq<FrameCallbackId>, deltaTime: real): (r: seq<Invocation>)
    ensures |r| == |callbacks|
    ensures forall i :: 0 <= i < |callbacks| ==> r[i] == Frame(callbacks[i], deltaTime)
  {
    if callbacks == [] then []
    else [Frame(callbacks[0], deltaTime)] + FrameCalls(callbacks[1..], deltaTime)
  }

  /** A pass stops the `run` loop: it drained a `Quit` event or a frame
      callback called `quit`. */
  predicate Stops(drained: seq<Event>, frame: FrameInput)
  {
    QuitIn(drained) || frame.quit.Some?
  }

  /** The code `run` returns when a pass stops it: the code a frame
      callback passed to `quit`, or 0 for a `Quit` event alone. */
  function Requested(frame: FrameInput): i32
  {
    if frame.quit.Some? then frame.quit.value else 0
  }

  /** Every event of every pass is tagged. */
  predicate AllTagged(drains: seq<seq<Event>>)
  {
    forall j, i :: 0 <= j < |drains| && 0 <= i < |drains[j]| ==> Tagged(drains[j][i])
  }

  /** What pass `j` drains: the events translated from its pending input,
      after the events queued before the first pass. */
  function PassEvents(j: nat, frame: FrameInput, queue0: seq<Event>, windows: map<XID, Window>): seq<Event>
  {
    (if j == 0 then queue0 else []) + Translated(frame.pending, windows)
  }

  /** Each pass drained what its input and the queue left before it hold. */
  predicate DrainedFrom(drains: seq<seq<Event>>, frames: seq<FrameInput>, queue0: seq<Event>, windows: map<XID, Window>)
  {
    forall j :: 0 <= j < |drains| && j < |frames| ==> drains[j] == PassEvents(j, frames[j], queue0, windows)
  }

  /** None of the first `n` passes stops the loop. */
  predicate NoStopBefore(drains: seq<seq<Event>>, frames: seq<FrameInput>, n: int)
  {
    forall j :: 0 <= j < n && j < |drains| && j < |frames| ==> !Stops(drains[j], frames[j])
  }

  /** The windows the events of a sequence of passes refer to. */
  function WindowsOfAll(drains: seq<seq<Event>>): set<Window>
  {
    set j, i | 0 <= j < |drains| && 0 <= i < |drains[j]| && drains[j][i].window != null :: drains[j][i].window
  }

  /** The passes but the last, and the last, refer to no window the whole
      sequence does not. */
  lemma WindowsOfAllInit(drains: seq<seq<Event>>)
    requires drains != []
    ensures WindowsOfAll(drains[..|drains| - 1]) <= WindowsOfAll(drains)
    ensures WindowsOf(drains[|drains| - 1]) <= WindowsOfAll(drains)
  {
    var n := |drains| - 1;
    forall w | w in WindowsOfAll(drains[..n]) ensures w in WindowsOfAll(drains) {
      var j, i :| 0 <= j < n && 0 <= i < |drains[..n][j]| && drains[..n][j][i].window == w;
      assert drains[j][i].window == w;
    }
    forall w | w in WindowsOf(drains[n]) ensures w in WindowsOfAll(drains) {
      var i :| 0 <= i < |drains[n]| && drains[n][i].window == w;
    }
  }

  /** What handling the events of each pass invokes, pass by pass. */
  function Handled(drains: seq<seq<Event>>): (r: seq<seq<Invocation>>)
    requires AllTagged(drains)
    reads WindowsOfAll(drains)
    ensures |r| == |drains|
  {
    if drains == [] then []
    else Handled(drains[..|drains| - 1]) + [HandleAll(drains[|drains| - 1])]
  }

  /** What handling the passes' events invokes depends only on the
      callback slots of the windows those events refer to. */
  twostate lemma {:induction false} HandledFrame(drains: seq<seq<Event>>)
    requires AllTagged(drains)
    requires forall j :: 0 <= j < |drains| ==> forall w :: w in WindowsOf(drains[j]) ==> unchanged(w)
    ensures old(Handled(drains)) == Handled(drains)
  {
    if drains != [] {
      WindowsOfAllInit(drains);
      HandledFrame(drains[..|drains| - 1]);
    }
  }

  /** What a sequence of passes invokes: for each pass in order, what
      handling its events invoked, then every frame callback with the
      pass's delta. */
  function Passes(handled: seq<seq<Invocation>>, frames: seq<FrameInput>, callbacks: seq<FrameCallbackId>): seq<Invocation>
    requires |handled| <= |frames|
  {
    if handled == [] then []
    else
      Passes(handled[..|handled| - 1], frames, callbacks) + handled[|handled| - 1]
      + FrameCalls(callbacks, frames[|handled| - 1].deltaTime)
  }

  /** Appending a pass of tagged events keeps every pass tagged. */
  lemma AllTaggedSnoc(drains: seq<seq<Event>>, drained: seq<Event>)
    requires AllTagged(drains) && forall i :: 0 <= i < |drained| ==> Tagged(drained[i])
    ensures AllTagged(drains + [drained])
  {
    forall j | 0 <= j < |drains| ensures (drains + [drained])[j] == drains[j] { }
  }

  /** A next pass that drained what its input translates to extends `DrainedFrom`. */
  lemma DrainedFromSnoc(drains: seq<seq<Event>>, drained: seq<Event>, frames: seq<FrameInput>, queue0: seq<Event>, windows: map<XID, Window>)
    requires |drains| < |frames| && DrainedFrom(drains, frames, queue0, windows)
    requires drained == PassEvents(|drains|, frames[|drains|], queue0, windows)
    ensures DrainedFrom(drains + [drained], frames, queue0, windows)
  {
    forall j | 0 <= j < |drains| ensures (drains + [drained])[j] == drains[j] { }
  }

  /** Handling the passes' events pass by pass, with one more pass. */
  lemma HandledSnoc(drains: seq<seq<Event>>, drained: seq<Event>)
    requires AllTagged(drains + [drained])
    ensures AllTagged(drains) && forall i :: 0 <= i < |drained| ==> Tagged(drained[i])
    ensures Handled(drains + [drained]) == Handled(drains) + [HandleAll(drained)]
  {
    var next := drains + [drained];
    assert next[|drains|] == drained;
    assert next[..|drains|] == drains;
  }

  /** A next pass adds what handling its events invoked, then the frame
      callbacks with its delta. */
  lemma PassesSnoc(handled: seq<seq<Invocation>>, h: seq<Invocation>, frames: seq<FrameInput>, callbacks: seq<FrameCallbackId>)
    requires |handled| < |frames|
    ensures Passes(handled + [h], frames, callbacks)
      == Passes(handled, frames, callbacks) + h + FrameCalls(callbacks, frames[|handled|].deltaTime)
  {
    assert (handled + [h])[..|handled|] == handled;
  }

  /** The loop state of `run` after the passes that drained `drains` and
      invoked `handled` while handling their events: the loop runs exactly
      while no pass has stopped it, only the last pass can have stopped it
      and the exit code is then the one that pass requested, and the log has
      grown by what the passes invoked. */
  predicate RanValues(frames: seq<FrameInput>, drains: seq<seq<Event>>, running: bool, exitCode: i32,
                      callbacks: seq<FrameCallbackId>, handled: seq<seq<Invocation>>, log0: seq<Invocation>, log: seq<Invocation>)
  {
    && |drains| <= |frames| && |handled| == |drains|
    && NoStopBefore(drains, frames, |drains| - 1)
    && (running <==> (|drains| == 0 || !Stops(drains[|drains| - 1], frames[|drains| - 1])))
    && (!running ==> exitCode == Requested(frames[|drains| - 1]))
    && log == log0 + Passes(handled, frames, callbacks)
  }

  /** A pass taken while the loop runs, which stops it exactly when it
      drains a `Quit` event or a frame callback quits, and which logs what
      handling its events invoked and then the frame callbacks, keeps the
      loop state. */
  lemma RanStep(frames: seq<FrameInput>, drains: seq<seq<Event>>, drained: seq<Event>, exitCode0: i32, callbacks: seq<FrameCallbackId>,
                handled: seq<seq<Invocation>>, h: seq<Invocation>, log0: seq<Invocation>, log: seq<Invocation>, running: bool, exitCode: i32)
    requires RanValues(frames, drains, true, exitCode0, callbacks, handled, log0, log) && |drains| < |frames|
    requires running == !Stops(drained, frames[|drains|])
    requires exitCode == (if frames[|drains|].quit.Some? then frames[|drains|].quit.value else if QuitIn(drained) then 0 else exitCode0)
    ensures RanValues(frames, drains + [drained], running, exitCode, callbacks, handled + [h],
                      log0, log + h + FrameCalls(callbacks, frames[|drains|].deltaTime))
  {
    var n := |drains|;
    NoStopSnoc(drains, drained, frames);
    assert (drains + [drained])[n] == drained;
    var passed := Passes(handled, frames, callbacks);
    var calls := FrameCalls(callbacks, frames[n].deltaTime);
    PassesSnoc(handled, h, frames, callbacks);
    AppendAssociates(log0, passed, h, calls);
  }

  /** Appending three logs in turn is appending their concatenation. */
  lemma AppendAssociates(a: seq<Invocation>, b: seq<Invocation>, c: seq<Invocation>, d: seq<Invocation>)
    ensures a + b + c + d == a + (b + c + d)
  {
  }

  /** When the last pass so far did not stop the loop, none of them did. */
  lemma NoStopSnoc(drains: seq<seq<Event>>, drained: seq<Event>, frames: seq<FrameInput>)
    requires NoStopBefore(drains, frames, |drains| - 1)
    requires |drains| == 0 || |frames| < |drains| || !Stops(drains[|drains| - 1], frames[|drains| - 1])
    ensures NoStopBefore(drains + [drained], frames, |drains|)
  {
    forall j | 0 <= j < |drains| ensures (drains + [drained])[j] == drains[j] { }
  }

  /** The input of one pass of the `run` loop: the native events pending
      at `pumpEvents`, the measured frame time, and the code a frame
      callback passes to `quit` during `update`, if one does. */
  datatype FrameInput = FrameInput(pending: seq<XEvent>, deltaTime: real, quit: W.Option<i32>)

  class Application {
    const platform: X11Platform
    var running: bool
    var exitCode: i32
    var frameCallbacks: seq<FrameCallbackId>
    var invocations: seq<Invocation>

    /** The platform is initialised and its queue well tagged. */
    ghost predicate Valid()
      reads this, platform
    {
      platform.Valid() && platform.Ready()
    }

    /** The state right after construction. */
    constructor (platform: X11Platform)
      requires platform.Valid() && platform.Ready()
      ensures this.platform == platform && Valid()
      ensures !running && exitCode == 0 && frameCallbacks == [] && invocations == []
    {
      this.platform := platform;
      running, exitCode := false, 0;
      frameCallbacks, invocations := [], [];
    }

    /** Construction with `initialize`: it fails, with the message of the
        exception, exactly when the platform's `initialize` returns false;
        the platform is then shut down by its destructor. */
    static method Create(server: XServer) returns (r: W.Result<Application>)
      ensures r.Failure? <==> !(server.display.Some? && server.visual.Some?)
      ensures r.Failure? ==> r.error == "Failed to initialize platform"
      ensures r.Success? ==> fresh(r.value) && fresh(r.value.platform) && r.value.Valid()
      ensures r.Success? ==> !r.value.running && r.value.exitCode == 0
      ensures r.Success? ==> r.value.frameCallbacks == [] && r.value.invocations == []
      ensures r.Success? ==> r.value.platform.queue == [] && r.value.platform.windows == map[]
    {
      var platform := new X11Platform();
      var ok := platform.Initialize(server);
      if !ok {
        platform.Shutdown();
        return W.Failure("Failed to initialize platform");
      }
      var app := new Application(platform);
      return W.Success(app);
    }

    /** `quit`: records the exit code and stops the loop; the default code is 0. */
    method Quit(code: i32 := 0)
      modifies this`exitCode, this`running
      ensures exitCode == code && !running
    {
      exitCode := code;
      running := false;
    }

    /** `onFrame`: registers a callback after the existing ones. */
    method OnFrame(callback: FrameCallbackId)
      modifies this`frameCallbacks
      ensures frameCallbacks == old(frameCallbacks) + [callback]
    {
      frameCallbacks := frameCallbacks + [callback];
    }

    /** `update`: calls every frame callback once, in registration order. */
    method Update(deltaTime: real)
      modifies this`invocations
      ensures invocations == old(invocations) + FrameCalls(frameCallbacks, deltaTime)
    {
      for i := 0 to |frameCallbacks|
        invariant invocations == old(invocations) + FrameCalls(frameCallbacks[..i], deltaTime)
      {
        invocations := invocations + [Frame(frameCallbacks[i], deltaTime)];
        assert FrameCalls(frameCallbacks[..i + 1], deltaTime)
            == FrameCalls(frameCallbacks[..i], deltaTime) + [Frame(frameCallbacks[i], deltaTime)];
      }
      assert frameCallbacks[..|frameCallbacks|] == frameCallbacks;
    }

    /** `processEvents`: pumps once, then dequeues until the queue is empty,
        handling every event in order. A `Quit` anywhere stops the loop
        with exit code 0, and draining still runs to the end. */
    method ProcessEvents(pending: seq<XEvent>) returns (ghost drained: seq<Event>)
      requires Valid()
      modifies this`running, this`exitCode, this`invocations, platform`queue
      ensures Valid() && platform.queue == []
      ensures drained == old(platform.queue) + Translated(pending, platform.windows)
      ensures forall i :: 0 <= i < |drained| ==> Tagged(drained[i])
      ensures running == (old(running) && !QuitIn(drained))
      ensures exitCode == (if QuitIn(drained) then 0 else old(exitCode))
      ensures invocations == old(invocations) + HandleAll(drained)
    {
      drained := platform.queue + Translated(pending, platform.windows);
      platform.PumpEvents(pending);
      Drain();
    }

    /** The dequeue loop of `processEvents`. */
    method Drain()
      requires Valid()
      modifies this`running, this`exitCode, this`invocations, platform`queue
      ensures Valid() && platform.queue == []
      ensures var drained := old(platform.queue);
        && running == (old(running) && !QuitIn(drained))
        && exitCode == (if QuitIn(drained) then 0 else old(exitCode))
        && invocations == old(invocations) + HandleAll(drained)
    {
      ghost var drained := platform.queue;
      ghost var k := 0;
      assert drained[..0] == [];
      while platform.HasEvents()
        invariant Valid() && Drained(drained, k, old(running), old(exitCode), old(invocations))
        decreases |platform.queue|
      {
        DrainOne(drained, k, old(running), old(exitCode), old(invocations));
        k := k + 1;
      }
      assert drained[..k] == drained;
    }

    /** The state after the first `k` events of `drained` have been
        dequeued and handled, starting from the given values. */
    ghost predicate Drained(drained: seq<Event>, k: nat, running0: bool, exitCode0: i32, invocations0: seq<Invocation>)
      reads this, platform, WindowsOf(drained)
    {
      && k <= |drained| && platform.queue == drained[k..]
      && (forall i :: 0 <= i < |drained| ==> Tagged(drained[i]))
      && running == (running0 && !QuitIn(drained[..k]))
      && exitCode == (if QuitIn(drained[..k]) then 0 else exitCode0)
      && invocations == invocations0 + HandleAll(drained[..k])
    }

    /** One pass of the dequeue loop: the `k`-th event of `drained` is
        dequeued and handled, so the first `k + 1` events have been. */
    method DrainOne(ghost drained: seq<Event>, ghost k: nat, ghost running0: bool, ghost exitCode0: i32, ghost invocations0: seq<Invocation>)
      requires Valid() && Drained(drained, k, running0, exitCode0, invocations0) && k < |drained|
      modifies this`running, this`exitCode, this`invocations, platform`queue
      ensures Valid() && Drained(drained, k + 1, running0, exitCode0, invocations0)
    {
      WindowsOfPrefix(drained, k);
      label Step:
      var event := platform.NextEvent();
      HandleEvent(event);
      HandleAllFrame@Step(drained[..k]);
      HandleAllStep(drained, k);
      QuitInStep(drained, k);
    }

    /** One pass of the `processEvents` loop: the `switch` on the kind. */
    method HandleEvent(event: Event)
      requires Tagged(event)
      modifies this`running, this`exitCode, this`invocations
      ensures running == (old(running) && event.kind != EventType.Quit)
      ensures exitCode == (if event.kind == EventType.Quit then 0 else old(exitCode))
      ensures invocations == old(invocations) + Handle(event)
    {
      match event.kind {
        case Quit =>
          Quit();
        case WindowClose =>
          if event.window != null && event.window.onClose.Some? {
            invocations := invocations + [Closed(event.window, event.window.onClose.value)];
          }
        case WindowResize =>
          if event.window != null && event.window.onResize.Some? {
            invocations := invocations + [Resized(event.window, event.window.onResize.value, event.payload.width, event.payload.height)];
          }
        case _ =>
      }
    }

    /** One pass of the `run` loop: events, then frame callbacks, then the
        (empty) render step; the event callbacks come before the frame ones,
        and a `quit` from a frame callback comes after any `Quit` event. */
    method RunIteration(frame: FrameInput) returns (ghost drained: seq<Event>)
      requires Valid()
      modifies this`running, this`exitCode, this`invocations, platform`queue
      ensures Valid() && platform.queue == []
      ensures drained == old(platform.queue) + Translated(frame.pending, platform.windows)
      ensures forall i :: 0 <= i < |drained| ==> Tagged(drained[i])
      ensures running == (old(running) && !QuitIn(drained) && frame.quit.None?)
      ensures exitCode == (if frame.quit.Some? then frame.quit.value else if QuitIn(drained) then 0 else old(exitCode))
      ensures invocations == old(invocations) + HandleAll(drained) + FrameCalls(frameCallbacks, frame.deltaTime)
    {
      drained := ProcessEvents(frame.pending);
      label Events:
      Update(frame.deltaTime);
      HandleAllFrame@Events(drained);
      if frame.quit.Some? {
        Quit(frame.quit.value);
      }
    }

    /** `run` over the passes the environment allows: it sets `running`
        first, so an earlier `quit` is overridden, then runs passes, each a
        `RunIteration`, until one stops the loop, and returns the exit code:
        the code requested during that last pass, or 0 when only a `Quit`
        event stopped it. `None` means the loop would go on. `drains` holds
        the events each pass dequeued: the first pass also drains what was
        already queued. */
    method Run(frames: seq<FrameInput>) returns (result: W.Option<i32>, ghost drains: seq<seq<Event>>)
      requires Valid()
      modifies this`running, this`exitCode, this`invocations, platform`queue
      ensures Valid() && |drains| <= |frames| && AllTagged(drains)
      ensures DrainedFrom(drains, frames, old(platform.queue), platform.windows)
      ensures NoStopBefore(drains, frames, |drains| - 1)
      ensures result.Some? <==> !running
      ensures result.Some? <==> (0 < |drains| && Stops(drains[|drains| - 1], frames[|drains| - 1]))
      ensures result.Some? ==> result.value == exitCode == Requested(frames[|drains| - 1])
      ensures result.None? ==> |drains| == |frames|
      ensures invocations == old(invocations) + Passes(Handled(drains), frames, frameCallbacks)
    {
      running := true;
      drains := [];
      var i := 0;
      while running && i < |frames|
        invariant i == |drains|
        invariant Valid() && Ran(frames, drains, old(platform.queue), old(invocations))
      {
        ghost var drained := RunPass(frames, i, drains, old(platform.queue), old(invocations));
        drains := drains + [drained];
        i := i + 1;
      }
      RanMeans(frames, drains, old(platform.queue), old(invocations));
      if running {
        return W.None, drains;
      }
      return W.Some(exitCode), drains;
    }

    /** The state after the passes that drained `drains`: the loop runs
        exactly while no pass has stopped it, only the last pass can have
        stopped it and the exit code is the one it requested, and the log
        has grown by what the passes invoked. */
    ghost predicate Ran(frames: seq<FrameInput>, drains: seq<seq<Event>>, queue0: seq<Event>, invocations0: seq<Invocation>)
      reads this, platform, WindowsOfAll(drains)
    {
      && AllTagged(drains)
      && DrainedFrom(drains, frames, queue0, platform.windows)
      && platform.queue == (if |drains| == 0 then queue0 else [])
      && RanValues(frames, drains, running, exitCode, frameCallbacks, Handled(drains), invocations0, invocations)
    }

    /** The loop state after the passes, clause by clause. */
    lemma RanMeans(frames: seq<FrameInput>, drains: seq<seq<Event>>, queue0: seq<Event>, invocations0: seq<Invocation>)
      requires Ran(frames, drains, queue0, invocations0)
      ensures |drains| <= |frames| && AllTagged(drains)
      ensures DrainedFrom(drains, frames, queue0, platform.windows)
      ensures NoStopBefore(drains, frames, |drains| - 1)
      ensures !running <==> (0 < |drains| && Stops(drains[|drains| - 1], frames[|drains| - 1]))
      ensures !running ==> exitCode == Requested(frames[|drains| - 1])
      ensures invocations == invocations0 + Passes(Handled(drains), frames, frameCallbacks)
    {
    }

    /** One pass of the `run` loop, taken while it is running: a
        `RunIteration` on the next input, which stops the loop exactly when
        it drains a `Quit` event or a frame callback quits. */
    method RunPass(frames: seq<FrameInput>, i: nat, ghost drains: seq<seq<Event>>, ghost queue0: seq<Event>, ghost invocations0: seq<Invocation>)
      returns (ghost drained: seq<Event>)
      requires Valid() && Ran(frames, drains, queue0, invocations0) && running && i == |drains| < |frames|
      modifies this`running, this`exitCode, this`invocations, platform`queue
      ensures Valid() && Ran(frames, drains + [drained], queue0, invocations0)
      ensures drained == PassEvents(i, frames[i], queue0, platform.windows)
      ensures running == !Stops(drained, frames[i])
      ensures invocations == old(invocations) + HandleAll(drained) + FrameCalls(frameCallbacks, frames[i].deltaTime)
    {
      ghost var handled := Handled(drains);
      drained := IterateKeepingHandled(frames[i], drains);
      PassKeepsRan(frames, drains, drained, queue0, invocations0, handled, old(platform.queue), old(exitCode), old(invocations));
    }

    /** A `RunIteration` that leaves what handling the earlier passes'
        events invokes unchanged: it changes no window. */
    method IterateKeepingHandled(frame: FrameInput, ghost drains: seq<seq<Event>>) returns (ghost drained: seq<Event>)
      requires Valid() && AllTagged(drains)
      modifies this`running, this`exitCode, this`invocations, platform`queue
      ensures Valid() && platform.queue == []
      ensures drained == old(platform.queue) + Translated(frame.pending, platform.windows)
      ensures forall i :: 0 <= i < |drained| ==> Tagged(drained[i])
      ensures running == (old(running) && !QuitIn(drained) && frame.quit.None?)
      ensures exitCode == (if frame.quit.Some? then frame.quit.value else if QuitIn(drained) then 0 else old(exitCode))
      ensures invocations == old(invocations) + HandleAll(drained) + FrameCalls(frameCallbacks, frame.deltaTime)
      ensures Handled(drains) == old(Handled(drains))
    {
      label Before:
      drained := RunIteration(frame);
      HandledFrame@Before(drains);
    }

    /** The loop state facts after one more pass, from the pass's effect
        and the facts before it. */
    lemma PassKeepsRan(frames: seq<FrameInput>, drains: seq<seq<Event>>, drained: seq<Event>, queue0: seq<Event>, invocations0: seq<Invocation>,
                       handled: seq<seq<Invocation>>, queue1: seq<Event>, exitCode1: i32, invocations1: seq<Invocation>)
      requires AllTagged(drains) && Handled(drains) == handled && |drains| < |frames|
      requires DrainedFrom(drains, frames, queue0, platform.windows)
      requires RanValues(frames, drains, true, exitCode1, frameCallbacks, handled, invocations0, invocations1)
      requires queue1 == (if |drains| == 0 then queue0 else [])
      requires platform.queue == []
      requires drained == queue1 + Translated(frames[|drains|].pending, platform.windows)
      requires forall i :: 0 <= i < |drained| ==> Tagged(drained[i])
      requires running == (true && !QuitIn(drained) && frames[|drains|].quit.None?)
      requires exitCode == (if frames[|drains|].quit.Some? then frames[|drains|].quit.value else if QuitIn(drained) then 0 else exitCode1)
      requires invocations == invocations1 + HandleAll(drained) + FrameCalls(frameCallbacks, frames[|drains|].deltaTime)
      ensures Ran(frames, drains + [drained], queue0, invocations0)
    {
      AllTaggedSnoc(drains, drained);
      HandledSnoc(drains, drained);
      DrainedFromSnoc(drains, drained, frames, queue0, platform.windows);
      RanStep(frames, drains, drained, exitCode1, frameCallbacks, handled, HandleAll(drained), invocations0, invocations1, running, exitCode);
    }

    /** `shutdown` (from the destructor): shuts the platform down. */
    method Shutdown()
      modifies platform`display, platform`visualInfo, platform`calls
      ensures platform.display == W.None && platform.visualInfo == Null
      ensures old(platform.Sound()) ==> platform.Sound()
    {
      platform.Shutdown();
    }
  }
}

=== FILE: event.dfy ===
/** The portable event vocabulary of include/aurora/platform/Event.hpp.
    The untyped union of the C++ `Event` becomes the tagged `Payload`. */
module Events {
  import opened Types
  import W = Wrappers
  import opened Windows

  /** `EventType`, in declaration order. */
  datatype EventType =
    | None | Quit
    | WindowClose | WindowResize | WindowMove | WindowFocus | WindowBlur
    | MouseMove | MouseDown | MouseUp | MouseScroll | MouseEnter | MouseLeave
    | KeyDown | KeyUp | TextInput
    | TouchBegin | TouchMove | TouchEnd

  /** `MouseButton` is an `enum class` over `int`: every 32-bit value is a
      legal object of the type, declared or not. */
  newtype MouseButton = x: int | -0x8000_0000 <= x < 0x8000_0000

  const NoButton: MouseButton := 0
  const LeftButton: MouseButton := 1
  const MiddleButton: MouseButton := 2
  const RightButton: MouseButton := 3
  const X1Button: MouseButton := 4
  const X2Button: MouseButton := 5

  /** The values that have an enumerator. */
  predicate IsNamedButton(b: MouseButton)
  {
    NoButton <= b <= X2Button
  }

  /** `KeyCode` is an `enum class` over `int` too: a conversion may produce
      a value that no enumerator names. */
  newtype KeyCode = x: int | -0x8000_0000 <= x < 0x8000_0000

  type LetterChar = c: char | 'A' <= c <= 'Z' witness 'A'
  type DigitChar = c: char | '0' <= c <= '9' witness '0'

  /** The keys from `F1` on, by their position in the declaration: the
      enumerators take consecutive values from 256, so a special key is
      its offset from `F1`. */
  type SpecialKey = x: nat | x < 37

  const F1: SpecialKey := 0
  const F2: SpecialKey := 1
  const F3: SpecialKey := 2
  const F4: SpecialKey := 3
  const F5: SpecialKey := 4
  const F6: SpecialKey := 5
  const F7: SpecialKey := 6
  const F8: SpecialKey := 7
  const F9: SpecialKey := 8
  const F10: SpecialKey := 9
  const F11: SpecialKey := 10
  const F12: SpecialKey := 11
  const Escape: SpecialKey := 12
  const Tab: SpecialKey := 13
  const Space: SpecialKey := 14
  const Enter: SpecialKey := 15
  const Backspace: SpecialKey := 16
  const Delete: SpecialKey := 17
  const Up: SpecialKey := 18
  const Down: SpecialKey := 19
  const Left: SpecialKey := 20
  const Right: SpecialKey := 21
  const Home: SpecialKey := 22
  const End: SpecialKey := 23
  const PageUp: SpecialKey := 24
  const PageDown: SpecialKey := 25
  const Insert: SpecialKey := 26
  const PrintScreen: SpecialKey := 27
  const Pause: SpecialKey := 28
  const LeftShift: SpecialKey := 29
  const RightShift: SpecialKey := 30
  const LeftCtrl: SpecialKey := 31
  const RightCtrl: SpecialKey := 32
  const LeftAlt: SpecialKey := 33
  const RightAlt: SpecialKey := 34
  const LeftSuper: SpecialKey := 35
  const RightSuper: SpecialKey := 36

  /** Every enumerator of `KeyCode`: `Unknown`, the letters, the digits
      and the special keys. */
  datatype KeyName = UnknownKey | Letter(letter: LetterChar) | Number(digit: DigitChar) | Special(special: SpecialKey)

  /** The value of an enumerator: letters and digits are their ASCII codes. */
  function Code(k: KeyName): KeyCode
  {
    match k
    case UnknownKey => 0
    case Letter(c) => c as int as KeyCode
    case Number(c) => c as int as KeyCode
    case Special(s) => (256 + s) as KeyCode
  }

  /** The enumerator whose value is `v`, if any. */
  function KeyOf(v: KeyCode): (k: W.Option<KeyName>)
    ensures k.Some? ==> Code(k.value) == v
  {
    if v == 0 then W.Some(UnknownKey)
    else if 'A' as int <= v as int <= 'Z' as int then W.Some(Letter(v as int as char))
    else if '0' as int <= v as int <= '9' as int then W.Some(Number(v as int as char))
    else if 256 <= v as int <= 256 + RightSuper then W.Some(Special(v as int - 256))
    else W.None
  }

  /** Every enumerator is found again from its value. */
  lemma KeyOfCode(k: KeyName)
    ensures KeyOf(Code(k)) == W.Some(k)
  {
  }

  /** No two enumerators share a value. */
  lemma {:induction false} CodeInjective(j: KeyName, k: KeyName)
    ensures Code(j) == Code(k) ==> j == k
  {
    KeyOfCode(j);
    KeyOfCode(k);
  }

  /** The value groups: `Unknown` is 0; `A`..`Z` are 65..90; `Num0`..`Num9`
      are 48..57; `F1` is 256 and the special keys follow it without gaps,
      so every one is at least 256 and none equals a letter, a digit or 0. */
  lemma KeyCodeGroups(k: KeyName)
    ensures k.UnknownKey? <==> Code(k) == 0
    ensures k.Letter? <==> 65 <= Code(k) <= 90
    ensures k.Number? <==> 48 <= Code(k) <= 57
    ensures k.Special? <==> 256 <= Code(k) <= 292
    ensures k.Special? ==> Code(k) as int == 256 + k.special
    ensures Code(Letter('A')) == 65 && Code(Letter('Z')) == 90
    ensures Code(Number('0')) == 48 && Code(Number('9')) == 57
    ensures Code(Special(F1)) == 256 && Code(Special(F12)) == 267 && Code(Special(RightSuper)) == 292
  {
  }

  /** `KeyModifiers` as flags. */
  datatype Modifiers = Modifiers(shift: bool, ctrl: bool, alt: bool, superKey: bool)

  const ShiftBit: bv32 := 1
  const CtrlBit: bv32 := 2
  const AltBit: bv32 := 4
  const SuperBit: bv32 := 8

  /** Which `KeyModifiers` bits a mask has. */
  function Decode(mask: bv32): Modifiers
  {
    Modifiers(mask & ShiftBit != 0, mask & CtrlBit != 0, mask & AltBit != 0, mask & SuperBit != 0)
  }

  /** OR-ing the bits of the set flags: the bits are distinct, so the mask
      determines the flags (it decodes back to them) and stays below 16. */
  function Mask(m: Modifiers): (mask: bv32)
    ensures mask < 16 && Decode(mask) == m
  {
    (if m.shift then ShiftBit else 0) | (if m.ctrl then CtrlBit else 0)
      | (if m.alt then AltBit else 0) | (if m.superKey then SuperBit else 0)
  }

  /** The union members of `Event`, one constructor each; `NoPayload`
      stands for a union no member of which has been written. */
  datatype Payload =
    | NoPayload
    | Size(width: u32, height: u32)
    | Position(x: i32, y: i32)
    | Mouse(mouseX: real, mouseY: real)
    | Scroll(dx: real, dy: real)
    | Button(button: MouseButton)
    | Key(code: KeyCode, modifiers: bv32, repeat: bool)
    | Text(text: seq<char>)

  /** `Event`: `Event()` has kind `None` and a null window, `Event(t)` sets
      the kind only, exactly as the two C++ constructors do. */
  datatype Event = Event(kind: EventType := EventType.None, window: Window? := null, payload: Payload := NoPayload)

  /** The union member the readers of each kind use is the one present. */
  predicate Tagged(e: Event)
  {
    match e.kind
    case WindowResize => e.payload.Size?
    case MouseMove => e.payload.Mouse?
    case MouseDown => e.payload.Button?
    case KeyDown => e.payload.Key?
    case _ => true
  }

  /** The two constructors leave the window null and write no union member. */
  lemma EventConstructors(t: EventType)
    ensures Event().kind == EventType.None && Event().window == null && Event().payload == NoPayload
    ensures Event(t).kind == t && Event(t).window == null && Event(t).payload == NoPayload
  {
  }
}

=== FILE: gl_shader.dfy ===
/** The OpenGL shader of src/graphics/opengl/GLShader.cpp: program
    creation from two compiled stages and the uniform-location cache.
    The GL driver is an oracle: the ids and compile outcomes it hands out
    are parameters, the uniform locations of the linked program a
    function, and every GL entry point called is appended to a call log. */
module GL {
  import opened Types

  /** `GL_VERTEX_SHADER` and `GL_FRAGMENT_SHADER`. */
  datatype ShaderKind = Vertex | Fragment

  /** The value of one `setUniform` overload; a `glm::mat4` is its sixteen
      floats in column-major order. */
  datatype UniformValue =
    | IntValue(i: i32)
    | FloatValue(f: real)
    | Vec3Value(x: real, y: real, z: real)
    | Mat4Value(m: seq<real>)

  /** The GL entry points the shader calls, with the arguments that matter. */
  datatype GlCall =
    | GlCreateProgram(program: nat)
    | GlCreateShader(kind: ShaderKind, shader: nat)
    | GlShaderSource(shader: nat, source: string)
    | GlCompileShader(shader: nat)
    | GlGetCompileStatus(shader: nat)
    | GlGetInfoLogLength(shader: nat)
    | GlGetShaderInfoLog(shader: nat)
    | GlDeleteShader(shader: nat)
    | GlAttachShader(program: nat, shader: nat)
    | GlLinkProgram(program: nat)
    | GlValidateProgram(program: nat)
    | GlUseProgram(program: nat)
    | GlGetUniformLocation(program: nat, name: string)
    | GlUniform(location: i32, value: UniformValue)
    | GlDeleteProgram(program: nat)

  /** What the shader writes to `std::cerr`. */
  datatype Diagnostic =
    | CompileFailed(log: string)
    | UniformNotFound(name: string)

  /** The driver's answers for one `compileShader`: the id `glCreateShader`
      returns, the `GL_COMPILE_STATUS` it reports and its info log. */
  datatype ShaderAnswer = ShaderAnswer(id: nat, compiles: bool, infoLog: string)

  /** The driver's answers for one `createProgram`. */
  datatype Driver = Driver(program: nat, vertex: ShaderAnswer, fragment: ShaderAnswer)

  /** The id `compileShader` hands back: the shader's, or 0 after a failed compile. */
  function Compiled(a: ShaderAnswer): (id: nat)
    ensures id == 0 || id == a.id
    ensures a.compiles ==> id == a.id
    ensures !a.compiles ==> id == 0
  {
    if a.compiles then a.id else 0
  }

  /** The calls of one `compileShader`: create, source, compile, query the
      status and, on failure, read the log and delete the shader. */
  function CompileCalls(kind: ShaderKind, source: string, a: ShaderAnswer): seq<GlCall>
  {
    [GlCreateShader(kind, a.id), GlShaderSource(a.id, source), GlCompileShader(a.id), GlGetCompileStatus(a.id)]
    + (if a.compiles then [] else [GlGetInfoLogLength(a.id), GlGetShaderInfoLog(a.id), GlDeleteShader(a.id)])
  }

  /** The calls of one `createProgram`. */
  function ProgramCalls(vertexSrc: string, fragmentSrc: string, d: Driver): seq<GlCall>
  {
    [GlCreateProgram(d.program)]
    + CompileCalls(Vertex, vertexSrc, d.vertex)
    + CompileCalls(Fragment, fragmentSrc, d.fragment)
    + [ GlAttachShader(d.program, Compiled(d.vertex)), GlAttachShader(d.program, Compiled(d.fragment))
      , GlLinkProgram(d.program), GlValidateProgram(d.program)
      , GlDeleteShader(Compiled(d.vertex)), GlDeleteShader(Compiled(d.fragment)) ]
  }

  /** What one `compileShader` writes to `std::cerr`. */
  function CompileDiagnostics(a: ShaderAnswer): seq<Diagnostic>
  {
    if a.compiles then [] else [CompileFailed(a.infoLog)]
  }

  /** A compile deletes the shader it created exactly when it fails, and
      it queries the log only then. */
  lemma CompileDeletesOnlyOnFailure(kind: ShaderKind, source: string, a: ShaderAnswer)
    ensures GlDeleteShader(a.id) in CompileCalls(kind, source, a) <==> !a.compiles
    ensures (exists c :: c in CompileCalls(kind, source, a) && c.GlGetShaderInfoLog?) <==> !a.compiles
  {
    var calls := CompileCalls(kind, source, a);
    if !a.compiles {
      assert calls[5] == GlGetShaderInfoLog(a.id);
    }
  }

  /** `createProgram` attaches exactly what the two compiles returned,
      0 standing for a stage that failed. */
  lemma ProgramAttachesCompiledStages(vertexSrc: string, fragmentSrc: string, d: Driver)
    ensures forall p, s :: (GlAttachShader(p, s) in ProgramCalls(vertexSrc, fragmentSrc, d)
      <==> p == d.program && (s == Compiled(d.vertex) || s == Compiled(d.fragment)))
    ensures !d.vertex.compiles || !d.fragment.compiles ==> GlAttachShader(d.program, 0) in ProgramCalls(vertexSrc, fragmentSrc, d)
  {
    var calls := ProgramCalls(vertexSrc, fragmentSrc, d);
    var head := [GlCreateProgram(d.program)] + CompileCalls(Vertex, vertexSrc, d.vertex) + CompileCalls(Fragment, fragmentSrc, d.fragment);
    var tail := [ GlAttachShader(d.program, Compiled(d.vertex)), GlAttachShader(d.program, Compiled(d.fragment))
      , GlLinkProgram(d.program), GlValidateProgram(d.program)
      , GlDeleteShader(Compiled(d.vertex)), GlDeleteShader(Compiled(d.fragment)) ];
    assert calls == head + tail;
    forall c | c in head ensures !c.GlAttachShader? {
    }
    assert GlAttachShader(d.program, Compiled(d.vertex)) == tail[0];
    assert GlAttachShader(d.program, Compiled(d.fragment)) == tail[1];
  }

  /** Every shader `createProgram` creates is deleted before it returns:
      either by the failed compile or by the final `glDeleteShader`. */
  lemma ProgramDeletesEveryShader(vertexSrc: string, fragmentSrc: string, d: Driver)
    ensures forall k, s :: (GlCreateShader(k, s) in ProgramCalls(vertexSrc, fragmentSrc, d)
      ==> GlDeleteShader(s) in ProgramCalls(vertexSrc, fragmentSrc, d))
  {
    var calls := ProgramCalls(vertexSrc, fragmentSrc, d);
    var vc := CompileCalls(Vertex, vertexSrc, d.vertex);
    var fc := CompileCalls(Fragment, fragmentSrc, d.fragment);
    var tail := [ GlAttachShader(d.program, Compiled(d.vertex)), GlAttachShader(d.program, Compiled(d.fragment))
      , GlLinkProgram(d.program), GlValidateProgram(d.program)
      , GlDeleteShader(Compiled(d.vertex)), GlDeleteShader(Compiled(d.fragment)) ];
    assert calls == [GlCreateProgram(d.program)] + vc + fc + tail;
    CompileDeletesItsShader(Vertex, vertexSrc, d.vertex);
    CompileDeletesItsShader(Fragment, fragmentSrc, d.fragment);
    assert tail[4] == GlDeleteShader(Compiled(d.vertex)) && tail[5] == GlDeleteShader(Compiled(d.fragment));
  }

  /** The only shader a compile creates is its own, and it is deleted by
      the compile itself or is the id handed back. */
  lemma CompileDeletesItsShader(kind: ShaderKind, source: string, a: ShaderAnswer)
    ensures forall k, s :: GlCreateShader(k, s) in CompileCalls(kind, source, a) ==> k == kind && s == a.id
    ensures GlDeleteShader(a.id) in CompileCalls(kind, source, a) || Compiled(a) == a.id
  {
    CompileDeletesOnlyOnFailure(kind, source, a);
  }

  /** The names whose location was asked of `program`, in call order. */
  function Queried(calls: seq<GlCall>, program: nat): seq<string>
  {
    if calls == [] then []
    else
      var c := calls[|calls| - 1];
      Queried(calls[..|calls| - 1], program)
        + (if c.GlGetUniformLocation? && c.program == program then [c.name] else [])
  }

  /** The names the "not found" warning was written for, in order. */
  function Warned(diagnostics: seq<Diagnostic>): seq<string>
  {
    if diagnostics == [] then []
    else
      var g := diagnostics[|diagnostics| - 1];
      Warned(diagnostics[..|diagnostics| - 1]) + (if g.UniformNotFound? then [g.name] else [])
  }

  /** Every name counted as queried was asked of `program` by a call in
      the log, and every call asking `program` for a name counts. */
  lemma {:induction false} QueriedInLog(calls: seq<GlCall>, program: nat)
    ensures forall n :: n in Queried(calls, program) <==> GlGetUniformLocation(program, n) in calls
  {
    if calls != [] {
      var init := calls[..|calls| - 1];
      QueriedInLog(init, program);
      assert calls == init + [calls[|calls| - 1]];
    }
  }

  /** No name occurs twice. */
  predicate Distinct(names: seq<string>)
  {
    forall i, j :: 0 <= i < j < |names| ==> names[i] != names[j]
  }

  /** The queries of a log are those of its two halves, in order. */
  lemma {:induction false} QueriedAppend(a: seq<GlCall>, b: seq<GlCall>, program: nat)
    ensures Queried(a + b, program) == Queried(a, program) + Queried(b, program)
  {
    if b != [] {
      assert (a + b)[..|a + b| - 1] == a + b[..|b| - 1];
      assert (a + b)[|a + b| - 1] == b[|b| - 1];
      QueriedAppend(a, b[..|b| - 1], program);
    } else {
      assert a + b == a;
    }
  }

  /** The warnings of a diagnostic stream are those of its two halves, in order. */
  lemma {:induction false} WarnedAppend(a: seq<Diagnostic>, b: seq<Diagnostic>)
    ensures Warned(a + b) == Warned(a) + Warned(b)
  {
    if b != [] {
      assert (a + b)[..|a + b| - 1] == a + b[..|b| - 1];
      assert (a + b)[|a + b| - 1] == b[|b| - 1];
      WarnedAppend(a, b[..|b| - 1]);
    } else {
      assert a + b == a;
    }
  }

  /** One query of `program` for `name` queries just `name`. */
  lemma QueriedOne(program: nat, name: string)
    ensures Queried([GlGetUniformLocation(program, name)], program) == [name]
  {
    assert [GlGetUniformLocation(program, name)][..0] == [];
  }

  /** At most one "not found" warning for `name` warns about just `name`, if at all. */
  lemma WarnedOne(warning: seq<Diagnostic>, name: string)
    requires warning == [] || warning == [UniformNotFound(name)]
    ensures Warned(warning) == if warning == [] then [] else [name]
  {
    if warning != [] {
      assert warning[..0] == [];
    }
  }

  /** A log without uniform queries queries nothing. */
  lemma {:induction false} QueriedNone(calls: seq<GlCall>, program: nat)
    requires forall i :: 0 <= i < |calls| ==> !calls[i].GlGetUniformLocation?
    ensures Queried(calls, program) == []
  {
    if calls != [] {
      QueriedNone(calls[..|calls| - 1], program);
    }
  }

  /** `createProgram` queries no uniform and warns about none. */
  lemma ProgramQueriesNoUniform(vertexSrc: string, fragmentSrc: string, d: Driver, program: nat)
    ensures Queried(ProgramCalls(vertexSrc, fragmentSrc, d), program) == []
    ensures Warned(CompileDiagnostics(d.vertex) + CompileDiagnostics(d.fragment)) == []
  {
    var calls := ProgramCalls(vertexSrc, fragmentSrc, d);
    forall i | 0 <= i < |calls| ensures !calls[i].GlGetUniformLocation? {
      assert calls[i] in calls;
    }
    QueriedNone(calls, program);
    WarnedAppend(CompileDiagnostics(d.vertex), CompileDiagnostics(d.fragment));
  }

  /** Appending a name not yet present keeps a sequence duplicate-free. */
  lemma DistinctSnoc(names: seq<string>, n: string)
    requires Distinct(names) && n !in names
    ensures Distinct(names + [n])
  {
  }

  /** The cache that first-time queries of `queried`, in order, build. */
  function Cached(queried: seq<string>, locate: string -> i32): map<string, i32>
  {
    if queried == [] then map[]
    else
      var n := queried[|queried| - 1];
      Cached(queried[..|queried| - 1], locate)[n := locate(n)]
  }

  /** The queried names the driver does not know, in query order. */
  function NotFound(queried: seq<string>, locate: string -> i32): seq<string>
  {
    if queried == [] then []
    else
      var n := queried[|queried| - 1];
      NotFound(queried[..|queried| - 1], locate) + (if locate(n) == -1 then [n] else [])
  }

  /** The cache holds exactly the queried names, each with the driver's location. */
  lemma {:induction false} CachedAgrees(queried: seq<string>, locate: string -> i32)
    ensures forall n :: n in Cached(queried, locate) <==> n in queried
    ensures forall n :: n in Cached(queried, locate) ==> Cached(queried, locate)[n] == locate(n)
  {
    if queried != [] {
      var init := queried[..|queried| - 1];
      CachedAgrees(init, locate);
      assert queried == init + [queried[|queried| - 1]];
    }
  }

  /** The warned names are exactly the queried ones the driver does not
      know, and a name queried once is warned about at most once. */
  lemma {:induction false} NotFoundExact(queried: seq<string>, locate: string -> i32)
    ensures forall n :: n in NotFound(queried, locate) <==> n in queried && locate(n) == -1
    ensures Distinct(queried) ==> Distinct(NotFound(queried, locate))
  {
    if queried != [] {
      var init := queried[..|queried| - 1];
      var n := queried[|queried| - 1];
      NotFoundExact(init, locate);
      assert queried == init + [n];
      if Distinct(queried) {
        assert Distinct(init) by {
          forall i, j | 0 <= i < j < |init| ensures init[i] != init[j] {
            assert init[i] == queried[i] && init[j] == queried[j];
          }
        }
        assert n !in init;
      }
    }
  }

  /** A location cache of `program` in front of the driver agrees with the
      GL call log and the diagnostics: every name was queried at most
      once, the cache holds what those queries returned, and the warnings
      are for the queried names the driver does not know, in query order. */
  ghost predicate Coherent(log: seq<GlCall>, diagnostics: seq<Diagnostic>, cache: map<string, i32>, program: nat, locate: string -> i32)
  {
    && Distinct(Queried(log, program))
    && cache == Cached(Queried(log, program), locate)
    && Warned(diagnostics) == NotFound(Queried(log, program), locate)
  }

  /** A miss keeps the cache coherent: the name is queried once more,
      cached with the driver's answer, and warned about when that is -1. */
  lemma MissKeepsCoherent(log: seq<GlCall>, diagnostics: seq<Diagnostic>, cache: map<string, i32>, program: nat, locate: string -> i32, name: string)
    requires Coherent(log, diagnostics, cache, program, locate) && name !in cache
    ensures Coherent(log + [GlGetUniformLocation(program, name)],
      diagnostics + (if locate(name) == -1 then [UniformNotFound(name)] else []),
      cache[name := locate(name)], program, locate)
  {
    var warning := if locate(name) == -1 then [UniformNotFound(name)] else [];
    var queried := Queried(log, program) + [name];
    assert queried[..|queried| - 1] == Queried(log, program);
    CachedAgrees(Queried(log, program), locate);
    QueriedAppend(log, [GlGetUniformLocation(program, name)], program);
    QueriedOne(program, name);
    WarnedAppend(diagnostics, warning);
    WarnedOne(warning, name);
    DistinctSnoc(Queried(log, program), name);
  }

  /** Any call but a uniform query keeps the cache coherent. */
  lemma OtherCallKeepsCoherent(log: seq<GlCall>, diagnostics: seq<Diagnostic>, cache: map<string, i32>, program: nat, locate: string -> i32, call: GlCall)
    requires Coherent(log, diagnostics, cache, program, locate) && !call.GlGetUniformLocation?
    ensures Coherent(log + [call], diagnostics, cache, program, locate)
  {
    QueriedAppend(log, [call], program);
    assert [call][..0] == [];
    assert Queried([call], program) == [];
    assert Queried(log + [call], program) == Queried(log, program);
  }

  class OpenGLShader {
    var rendererId: nat
    var cache: map<string, i32>
    /** The locations `glGetUniformLocation` reports for the linked program. */
    const locate: string -> i32
    var gl: seq<GlCall>
    var diagnostics: seq<Diagnostic>

    /** The cache and the warnings agree with the call log. */
    ghost predicate Valid()
      reads this
    {
      Coherent(gl, diagnostics, cache, rendererId, locate)
    }

    /** The constructor compiles and links the program; the cache starts empty. */
    constructor (vertexSrc: string, fragmentSrc: string, d: Driver, locate: string -> i32)
      ensures this.locate == locate && rendererId == d.program && cache == map[]
      ensures gl == ProgramCalls(vertexSrc, fragmentSrc, d)
      ensures diagnostics == CompileDiagnostics(d.vertex) + CompileDiagnostics(d.fragment)
      ensures Valid()
    {
      this.locate := locate;
      rendererId, cache, gl, diagnostics := 0, map[], [], [];
      new;
      rendererId := CreateProgram(vertexSrc, fragmentSrc, d);
      ProgramQueriesNoUniform(vertexSrc, fragmentSrc, d, rendererId);
    }

    /** `compileShader`: the shader id, or 0 after a failed compile, which
        is reported and whose shader is deleted. */
    method CompileShader(kind: ShaderKind, source: string, a: ShaderAnswer) returns (id: nat)
      modifies this`gl, this`diagnostics
      ensures id == Compiled(a)
      ensures gl == old(gl) + CompileCalls(kind, source, a)
      ensures diagnostics == old(diagnostics) + CompileDiagnostics(a)
    {
      id := a.id;
      gl := gl + [GlCreateShader(kind, id), GlShaderSource(id, source), GlCompileShader(id), GlGetCompileStatus(id)];
      if !a.compiles {
        gl := gl + [GlGetInfoLogLength(id), GlGetShaderInfoLog(id)];
        diagnostics := diagnostics + [CompileFailed(a.infoLog)];
        gl := gl + [GlDeleteShader(id)];
        return 0;
      }
    }

    /** `createProgram`: compiles both stages, attaches, links, validates
        and deletes them, and returns the program whatever the compiles
        and the link reported. */
    method CreateProgram(vertexSrc: string, fragmentSrc: string, d: Driver) returns (program: nat)
      modifies this`gl, this`diagnostics
      ensures program == d.program
      ensures gl == old(gl) + ProgramCalls(vertexSrc, fragmentSrc, d)
      ensures diagnostics == old(diagnostics) + CompileDiagnostics(d.vertex) + CompileDiagnostics(d.fragment)
    {
      program := d.program;
      gl := gl + [GlCreateProgram(program)];
      var vs := CompileShader(Vertex, vertexSrc, d.vertex);
      var fs := CompileShader(Fragment, fragmentSrc, d.fragment);
      gl := gl + [GlAttachShader(program, vs), GlAttachShader(program, fs)];
      gl := gl + [GlLinkProgram(program), GlValidateProgram(program)];
      gl := gl + [GlDeleteShader(vs), GlDeleteShader(fs)];
    }

    /** `bind`. */
    method Bind()
      requires Valid()
      modifies this`gl
      ensures Valid() && gl == old(gl) + [GlUseProgram(rendererId)]
    {
      OtherCallKeepsCoherent(gl, diagnostics, cache, rendererId, locate, GlUseProgram(rendererId));
      gl := gl + [GlUseProgram(rendererId)];
    }

    /** `unbind`. */
    method Unbind()
      requires Valid()
      modifies this`gl
      ensures Valid() && gl == old(gl) + [GlUseProgram(0)]
    {
      OtherCallKeepsCoherent(gl, diagnostics, cache, rendererId, locate, GlUseProgram(0));
      gl := gl + [GlUseProgram(0)];
    }

    /** The destructor. */
    method Delete()
      requires Valid()
      modifies this`gl
      ensures Valid() && gl == old(gl) + [GlDeleteProgram(rendererId)]
    {
      OtherCallKeepsCoherent(gl, diagnostics, cache, rendererId, locate, GlDeleteProgram(rendererId));
      gl := gl + [GlDeleteProgram(rendererId)];
    }

    /** `getUniformLocation`: the driver's location for `name`. A hit
        returns the cached value and changes nothing; a miss queries the
        driver once, caches the answer, -1 included, and warns exactly
        when the answer is -1. Either way the cache stays coherent, so no
        name is queried or warned about twice. */
    method GetUniformLocation(name: string) returns (location: i32)
      requires Valid()
      modifies this`cache, this`gl, this`diagnostics
      ensures Valid()
      ensures location == locate(name) && name in cache
      ensures cache == old(cache)[name := location]
      ensures name in old(cache) ==> gl == old(gl) && diagnostics == old(diagnostics)
      ensures name !in old(cache) ==> gl == old(gl) + [GlGetUniformLocation(rendererId, name)]
      ensures name !in old(cache) ==> diagnostics == old(diagnostics) + (if location == -1 then [UniformNotFound(name)] else [])
    {
      if name in cache {
        CachedAgrees(Queried(gl, rendererId), locate);
        return cache[name];
      }
      location := locate(name);
      var warning := if location == -1 then [UniformNotFound(name)] else [];
      MissKeepsCoherent(gl, diagnostics, cache, rendererId, locate, name);
      gl, diagnostics, cache := gl + [GlGetUniformLocation(rendererId, name)], diagnostics + warning, cache[name := location];
    }

    /** The four `setUniform` overloads: look the location up, then
        upload the value there (GL ignores the location -1). */
    method SetUniform(name: string, value: UniformValue)
      requires Valid()
      modifies this`cache, this`gl, this`diagnostics
      ensures Valid()
      ensures cache == old(cache)[name := locate(name)]
      ensures gl == old(gl)
        + (if name in old(cache) then [] else [GlGetUniformLocation(rendererId, name)])
        + [GlUniform(locate(name), value)]
      ensures diagnostics == old(diagnostics)
        + (if name !in old(cache) && locate(name) == -1 then [UniformNotFound(name)] else [])
    {
      var location := GetUniformLocation(name);
      OtherCallKeepsCoherent(gl, diagnostics, cache, rendererId, locate, GlUniform(location, value));
      gl := gl + [GlUniform(location, value)];
    }
  }
}

=== FILE: types.dfy ===
/** The fixed-width integer aliases and the `Color` record of
    include/aurora/core/Types.hpp. */
module Types {

  /** `u32` (uint32_t) and `i32` (int32_t). */
  type u32 = x: int | 0 <= x < 0x1_0000_0000
  type i32 = x: int | -0x8000_0000 <= x < 0x8000_0000

  /** One 8-bit colour channel numerator. */
  type byte = x: int | 0 <= x < 0x100

  /** C++ conversion of an integer to `uint32_t`: reduction modulo 2^32. */
  function ToU32(x: int): (r: u32)
    ensures 0 <= x < 0x1_0000_0000 ==> r == x
    ensures (r - x) % 0x1_0000_0000 == 0
  {
    x % 0x1_0000_0000
  }

  /** Conversion of an integer to a 32-bit signed integer (modular, as C++20 fixes it). */
  function ToI32(x: int): (r: i32)
    ensures -0x8000_0000 <= x < 0x8000_0000 ==> r == x
    ensures (r - x) % 0x1_0000_0000 == 0
  {
    var m := x % 0x1_0000_0000;
    if m < 0x8000_0000 then m else m - 0x1_0000_0000
  }

  /** A colour with float channels, modelled as reals; the default
      arguments give opaque black, as `Color()` does. */
  datatype Color = Color(r: real := 0.0, g: real := 0.0, b: real := 0.0, a: real := 1.0)

  /** The four 8-bit numerators `fromHex` divides by 255. */
  datatype Rgba8 = Rgba8(r: byte, g: byte, b: byte, a: byte)

  /** `(hex >> s) & 0xFF` for an unsigned `hex`: a right shift by `s` is a
      division by 2^s and the mask keeps the remainder modulo 256. */
  function Channels(hex: u32): (c: Rgba8)
    ensures c.r * 0x100_0000 + c.g * 0x1_0000 + c.b * 0x100 + c.a == hex
  {
    ShiftsCompose(hex);
    Rgba8((hex / 0x100_0000) % 0x100, (hex / 0x1_0000) % 0x100, (hex / 0x100) % 0x100, hex % 0x100)
  }

  /** Packs four numerators back into an RGBA word, red in the high byte. */
  function Pack(c: Rgba8): (hex: u32)
  {
    ((c.r * 0x100 + c.g) * 0x100 + c.b) * 0x100 + c.a
  }

  /** Shifting right by 16 or 24 is shifting right by 8 two or three times. */
  lemma ShiftsCompose(x: nat)
    ensures x / 0x1_0000 == (x / 0x100) / 0x100
    ensures x / 0x100_0000 == ((x / 0x100) / 0x100) / 0x100
  {
    ShiftByteTwice(x);
    ShiftByteTwice(x / 0x100);
    assert x / 0x100_0000 == (x / 0x1_0000) / 0x100;
  }

  lemma ShiftByteTwice(x: nat)
    ensures x / 0x1_0000 == (x / 0x100) / 0x100
    ensures x / 0x100_0000 == (x / 0x1_0000) / 0x100
  {
  }

  /** Appending a byte below a number and shifting it out again. */
  lemma ByteStep(q: int, m: byte)
    ensures (q * 0x100 + m) / 0x100 == q && (q * 0x100 + m) % 0x100 == m
  {
  }

  /** Splitting a packed word gives back the same four channels, so
      `Channels` and `Pack` are inverse bijections. */
  lemma {:induction false} ChannelsOfPack(c: Rgba8)
    ensures Channels(Pack(c)) == c
  {
    var hex := Pack(c);
    ByteStep((c.r * 0x100 + c.g) * 0x100 + c.b, c.a);
    ByteStep(c.r * 0x100 + c.g, c.b);
    ByteStep(c.r, c.g);
    ShiftsCompose(hex);
  }

  /** `Color::fromHex`: every channel is a whole number of 255ths in
      [0, 1], and the four numerators, red highest, reassemble `hex`. */
  function FromHex(hex: u32): (c: Color)
    ensures 0.0 <= c.r <= 1.0 && 0.0 <= c.g <= 1.0 && 0.0 <= c.b <= 1.0 && 0.0 <= c.a <= 1.0
    ensures Whole(c.r * 255.0) && Whole(c.g * 255.0) && Whole(c.b * 255.0) && Whole(c.a * 255.0)
    ensures (c.r * 255.0) * 16777216.0 + (c.g * 255.0) * 65536.0 + (c.b * 255.0) * 256.0 + c.a * 255.0
            == hex as real
  {
    var n := Channels(hex);
    var c := Color(Unit(n.r), Unit(n.g), Unit(n.b), Unit(n.a));
    assert c.r * 255.0 == n.r as real && c.g * 255.0 == n.g as real;
    assert c.b * 255.0 == n.b as real && c.a * 255.0 == n.a as real;
    assert (n.r * 16777216 + n.g * 65536 + n.b * 256 + n.a) as real
        == n.r as real * 16777216.0 + n.g as real * 65536.0 + n.b as real * 256.0 + n.a as real;
    c
  }

  /** The float division `k / 255.0f`, taken exactly. */
  function Unit(k: byte): (x: real)
    ensures 0.0 <= x <= 1.0 && x * 255.0 == k as real && Whole(x * 255.0)
  {
    k as real / 255.0
  }

  predicate Whole(x: real)
  {
    x.Floor as real == x
  }

  /** `fromHex(0x000000FF)` is the default colour, opaque black. */
  lemma FromHexOpaqueBlack()
    ensures Channels(0xFF) == Rgba8(0, 0, 0, 255)
    ensures FromHex(0xFF) == Color()
  {
  }
}

=== FILE: window.dfy ===
/** The window handle of include/aurora/platform/Window.hpp: its
    configuration, the native-handle slot and the five callback slots. */
module Windows {
  import opened Types
  import opened Wrappers

  /** `Window::Type`, the window-manager role requested for a window. */
  datatype WindowType = Normal | Dock | Panel | Popup | Desktop | Splash

  /** `Window::Config`; the default arguments are the member initialisers,
      so `Config()` is a default-constructed configuration. */
  datatype Config = Config(
    title: string := "Aurora Window",
    x: i32 := -1,
    y: i32 := -1,
    width: u32 := 800,
    height: u32 := 600,
    windowType: WindowType := Normal,
    decorated: bool := true,
    resizable: bool := true,
    transparent: bool := false,
    alwaysOnTop: bool := false,
    opacity: real := 1.0)

  /** A negative coordinate is the "let the system centre it" sentinel. */
  predicate RequestsCentering(c: Config)
  {
    c.x < 0 && c.y < 0
  }

  /** A default configuration asks for centring, an 800x600 normal window
      that is decorated and resizable, opaque and not kept on top. */
  lemma DefaultConfig()
    ensures RequestsCentering(Config()) && Config().x == -1 && Config().y == -1
    ensures Config().width == 800 && Config().height == 600
    ensures Config().windowType == Normal && Config().decorated && Config().resizable
    ensures !Config().transparent && !Config().alwaysOnTop
  {
  }

  /** `void*` native handle: the X window id cast to a pointer, 0 is null. */
  type NativeHandle = nat
  const NullHandle: NativeHandle := 0

  /** The identity of a `std::function` target stored in a slot. */
  type CallbackId = nat

  /** The five public callback members. */
  datatype Slot = OnClose | OnResize | OnMove | OnFocus | OnBlur

  class Window {
    const config: Config
    var nativeHandle: NativeHandle
    var onClose: Option<CallbackId>
    var onResize: Option<CallbackId>
    var onMove: Option<CallbackId>
    var onFocus: Option<CallbackId>
    var onBlur: Option<CallbackId>

    /** A new window keeps its configuration, has a null native handle and
        no callback set. */
    constructor (config: Config)
      ensures this.config == config && nativeHandle == NullHandle
      ensures forall s :: Callback(s) == None
    {
      this.config := config;
      nativeHandle := NullHandle;
      onClose, onResize, onMove, onFocus, onBlur := None, None, None, None, None;
    }

    /** `setNativeHandle`: `nativeHandle()` returns the last value set. */
    method SetNativeHandle(handle: NativeHandle)
      modifies this`nativeHandle
      ensures nativeHandle == handle
    {
      nativeHandle := handle;
    }

    /** The callback currently held by slot `s`. */
    function Callback(s: Slot): Option<CallbackId>
      reads this`onClose, this`onResize, this`onMove, this`onFocus, this`onBlur
    {
      match s
      case OnClose => onClose
      case OnResize => onResize
      case OnMove => onMove
      case OnFocus => onFocus
      case OnBlur => onBlur
    }

    /** A caller assigning the public member for slot `s` (`None` clears it):
        that slot holds the new value and every other slot is untouched. */
    method Assign(s: Slot, callback: Option<CallbackId>)
      modifies this`onClose, this`onResize, this`onMove, this`onFocus, this`onBlur
      ensures Callback(s) == callback
      ensures forall t :: t != s ==> Callback(t) == old(Callback(t))
    {
      match s
      case OnClose => onClose := callback;
      case OnResize => onResize := callback;
      case OnMove => onMove := callback;
      case OnFocus => onFocus := callback;
      case OnBlur => onBlur := callback;
    }
  }
}

=== FILE: wrappers.dfy ===
/** Optional values and results with an error message, used where the
    C++ code returns a null pointer, a sentinel or throws. */
module Wrappers {

  datatype Option<+T> = None | Some(value: T)

  datatype Result<+T> = Success(value: T) | Failure(error: string)
}

=== FILE: x11_platform.dfy ===
/** The X11 backend of src/platform/x11/X11Platform.cpp: native event
    translation, the FIFO event queue, the window registry and the
    display/visual lifecycle. Xlib and GLX are outside the model: what
    they return is passed in, and every call with an effect is appended
    to a call log. */
module X11 {
  import opened Types
  import W = Wrappers
  import opened Windows
  import opened Events

  /** An X resource id (`::Window`, an unsigned long). */
  type XID = nat

  /** SETofKEYBUTMASK bits of the X protocol encoding. */
  const ShiftMask: bv32 := 1
  const ControlMask: bv32 := 4
  const Mod1Mask: bv32 := 8

  /** The X events this backend reads, with the fields it reads; every
      other core event type is `OtherEvent`. */
  datatype XEvent =
    | ConfigureNotify(window: XID, width: i32, height: i32)
    | MotionNotify(window: XID, x: i32, y: i32)
    | ButtonPress(window: XID, button: u32)
    | KeyPress(window: XID, keycode: u32, state: bv32)
    | OtherEvent(window: XID)

  /** What the X server answers to `XOpenDisplay` and `glXChooseVisual`
      (`None` for a null result). */
  datatype XServer = XServer(display: W.Option<nat>, visual: W.Option<nat>)

  /** A pointer member: null, an address, or never initialised. */
  datatype Pointer = Null | At(address: nat) | Indeterminate

  /** The Xlib and GLX calls with an effect, in the order they are made. */
  datatype XCall =
    | XOpenDisplay(result: W.Option<nat>)
    | XCloseDisplay(display: nat)
    | XFree(pointer: Pointer)
    | XCreateWindow(window: XID, x: nat, y: nat, width: u32, height: u32)
    | XSetDockType(window: XID)
    | XMapWindow(window: XID)
    | XFlush
    | XDestroyWindow(window: XID)
    | GlXCreateContext(context: nat)
    | GlXMakeCurrent(window: XID, context: nat)
    | GlXDestroyContext(context: nat)
    | GlXSwapBuffers(window: XID)

  /** The displays a call log leaves open. */
  function OpenDisplays(calls: seq<XCall>): set<nat>
  {
    if calls == [] then {}
    else
      var before := OpenDisplays(calls[..|calls| - 1]);
      match calls[|calls| - 1]
      case XOpenDisplay(result) => if result.Some? then before + {result.value} else before
      case XCloseDisplay(d) => before - {d}
      case _ => before
  }

  /** A call log without undefined behaviour: every display closed is open
      at that point, and only real addresses are freed. */
  predicate WellPaired(calls: seq<XCall>)
  {
    if calls == [] then true
    else
      var before := calls[..|calls| - 1];
      var last := calls[|calls| - 1];
      && WellPaired(before)
      && (last.XCloseDisplay? ==> last.display in OpenDisplays(before))
      && (last.XFree? ==> last.pointer.At?)
  }

  /** Appending a call that neither opens, closes nor frees keeps a log well
      paired and leaves the open displays as they were. */
  lemma {:induction false} AppendNeutral(calls: seq<XCall>, c: XCall)
    requires !c.XOpenDisplay? && !c.XCloseDisplay? && !c.XFree?
    ensures OpenDisplays(calls + [c]) == OpenDisplays(calls)
    ensures WellPaired(calls + [c]) == WellPaired(calls)
  {
    assert (calls + [c])[..|calls|] == calls;
  }

  /** `(x >= 0) ? x : 0`: a negative (centring) coordinate is placed at 0. */
  function Placement(coord: i32): (p: nat)
    ensures p >= coord && (p == coord || p == 0)
  {
    if coord >= 0 then coord else 0
  }

  /** `convertKeyCode`: X keycodes 24..33 become '1' onwards and 38..63
      become 'A'..'Z'; everything else is `Unknown`. */
  function ConvertKeyCode(xkey: u32): (k: KeyCode)
    ensures k == 0 || '1' as int <= k as int <= ':' as int || 'A' as int <= k as int <= 'Z' as int
  {
    if 24 <= xkey <= 33 then ('1' as int + (xkey - 24)) as KeyCode
    else if 38 <= xkey <= 63 then ('A' as int + (xkey - 38)) as KeyCode
    else 0
  }

  /** What `convertKeyCode` produces, by enumerator: digits '1'..'9' for
      24..32, a value no enumerator has (':' = 58) for 33, the letters for
      38..63 and `Unknown` for every other code. */
  lemma ConvertKeyCodeNames(xkey: u32)
    ensures 24 <= xkey <= 32 ==> KeyOf(ConvertKeyCode(xkey)) == W.Some(Number(('1' as int + (xkey - 24)) as char))
    ensures xkey == 33 ==> ConvertKeyCode(xkey) == 58 && KeyOf(ConvertKeyCode(xkey)) == W.None
    ensures 38 <= xkey <= 63 ==> KeyOf(ConvertKeyCode(xkey)) == W.Some(Letter(('A' as int + (xkey - 38)) as char))
    ensures !(24 <= xkey <= 33) && !(38 <= xkey <= 63) ==> KeyOf(ConvertKeyCode(xkey)) == W.Some(UnknownKey)
  {
  }

  /** `convertModifiers`: Shift, Ctrl and Alt are set exactly when the X
      Shift, Control and Mod1 bits are; Super never is. */
  function ConvertModifiers(state: bv32): (mods: bv32)
    ensures mods < 8
    ensures Decode(mods) == Modifiers(state & ShiftMask != 0, state & ControlMask != 0, state & Mod1Mask != 0, false)
  {
    (if state & ShiftMask != 0 then ShiftBit else 0)
      | (if state & ControlMask != 0 then CtrlBit else 0)
      | (if state & Mod1Mask != 0 then AltBit else 0)
  }

  /** The registered window for a native id, or null. */
  function Registered(windows: map<XID, Window>, id: XID): (w: Window?)
    ensures w != null <==> id in windows
    ensures id in windows ==> w == windows[id]
  {
    if id in windows then windows[id] else null
  }

  /** The event one native event turns into, if any. */
  function Translate(x: XEvent, windows: map<XID, Window>): (r: W.Option<Event>)
    ensures r.Some? <==> !x.OtherEvent?
    ensures r.Some? ==> Tagged(r.value) && r.value.window == Registered(windows, x.window)
  {
    var window := Registered(windows, x.window);
    match x
    case ConfigureNotify(_, width, height) => W.Some(Event(WindowResize, window, Size(ToU32(width), ToU32(height))))
    case MotionNotify(_, mx, my) => W.Some(Event(MouseMove, window, Mouse(mx as real, my as real)))
    case ButtonPress(_, button) => W.Some(Event(MouseDown, window, Button(ToI32(button) as MouseButton)))
    case KeyPress(_, code, state) => W.Some(Event(KeyDown, window, Key(ConvertKeyCode(code), ConvertModifiers(state), false)))
    case OtherEvent(_) => W.None
  }

  /** The payloads: a resize carries the configured size cast to `u32`, a
      button press the raw X button number cast to the enum's `i32`, a key
      press the converted code and modifiers and never the repeat flag. */
  lemma TranslatePayloads(x: XEvent, windows: map<XID, Window>)
    ensures x.ConfigureNotify? ==>
      Translate(x, windows).value.kind == WindowResize
      && Translate(x, windows).value.payload == Size(ToU32(x.width), ToU32(x.height))
    ensures x.MotionNotify? ==>
      Translate(x, windows).value.kind == MouseMove && Translate(x, windows).value.payload == Mouse(x.x as real, x.y as real)
    ensures x.ButtonPress? ==>
      Translate(x, windows).value.kind == MouseDown
      && Translate(x, windows).value.payload == Button(ToI32(x.button) as MouseButton)
    ensures x.KeyPress? ==>
      Translate(x, windows).value.kind == KeyDown
      && Translate(x, windows).value.payload == Key(ConvertKeyCode(x.keycode), ConvertModifiers(x.state), false)
  {
  }

  /** The button number is not checked: X reports the wheel as buttons 4
      and 5, which arrive as `X1` and `X2`, and button 6 has no enumerator. */
  lemma UncheckedButtonCast(windows: map<XID, Window>, id: XID)
    ensures Translate(ButtonPress(id, 4), windows).value.payload.button == X1Button
    ensures Translate(ButtonPress(id, 5), windows).value.payload.button == X2Button
    ensures !IsNamedButton(Translate(ButtonPress(id, 6), windows).value.payload.button)
  {
  }

  /** An event for an id that is not registered (never created, or
      destroyed) is still delivered, with a null window. */
  lemma UnregisteredWindowIsNull(x: XEvent, windows: map<XID, Window>)
    requires !x.OtherEvent? && x.window !in windows
    ensures Translate(x, windows).Some? && Translate(x, windows).value.window == null
  {
  }

  /** The events a sequence of native events turns into, in arrival order. */
  function Translated(pending: seq<XEvent>, windows: map<XID, Window>): (r: seq<Event>)
    ensures |r| <= |pending|
    ensures forall i :: 0 <= i < |r| ==> Tagged(r[i])
    ensures forall i :: 0 <= i < |r| ==> r[i].window == null || r[i].window in windows.Values
  {
    if pending == [] then []
    else
      AsSeq(Translate(pending[0], windows)) + Translated(pending[1..], windows)
  }

  /** The event, if any, as a sequence of zero or one events. */
  function AsSeq(r: W.Option<Event>): seq<Event>
  {
    if r.Some? then [r.value] else []
  }

  /** Translation distributes over concatenation. */
  lemma {:induction false} TranslatedAppend(a: seq<XEvent>, b: seq<XEvent>, windows: map<XID, Window>)
    ensures Translated(a + b, windows) == Translated(a, windows) + Translated(b, windows)
  {
    if a == [] {
      assert a + b == b;
    } else {
      var ab := a + b;
      assert ab[0] == a[0] && ab[1..] == a[1..] + b;
      TranslatedAppend(a[1..], b, windows);
      calc {
        Translated(ab, windows);
        AsSeq(Translate(a[0], windows)) + Translated(a[1..] + b, windows);
        AsSeq(Translate(a[0], windows)) + (Translated(a[1..], windows) + Translated(b, windows));
      }
    }
  }

  /** Translating one more native event appends its translation. */
  lemma TranslatedStep(pending: seq<XEvent>, i: nat, windows: map<XID, Window>)
    requires i < |pending|
    ensures Translated(pending[..i + 1], windows) == Translated(pending[..i], windows) + AsSeq(Translate(pending[i], windows))
  {
    assert pending[..i + 1] == pending[..i] + [pending[i]];
    TranslatedAppend(pending[..i], [pending[i]], windows);
    assert [pending[i]][1..] == [];
  }

  /** Order is kept: the translation of the `i`-th native event sits right
      after the translations of the events that arrived before it. */
  lemma {:induction false} TranslatedInOrder(pending: seq<XEvent>, windows: map<XID, Window>, i: nat)
    requires i < |pending| && !pending[i].OtherEvent?
    ensures |Translated(pending[..i], windows)| < |Translated(pending, windows)|
    ensures Translated(pending, windows)[|Translated(pending[..i], windows)|] == Translate(pending[i], windows).value
  {
    assert pending == pending[..i] + ([pending[i]] + pending[i + 1..]);
    TranslatedAppend(pending[..i], [pending[i]] + pending[i + 1..], windows);
    TranslatedAppend([pending[i]], pending[i + 1..], windows);
    assert [pending[i]][1..] == [];
  }

  /** Only resize, motion, button-down and key-down events come out of the
      X11 backend, each tagged: no `Quit` and no `WindowClose` ever does. */
  lemma {:induction false} TranslatedKinds(pending: seq<XEvent>, windows: map<XID, Window>)
    ensures forall e :: e in Translated(pending, windows) ==>
      Tagged(e) && e.kind in {WindowResize, MouseMove, MouseDown, KeyDown}
  {
    if pending != [] {
      TranslatedKinds(pending[1..], windows);
    }
  }

  class X11Platform {
    var display: W.Option<nat>
    var visualInfo: Pointer
    var windows: map<XID, Window>
    var queue: seq<Event>
    var calls: seq<XCall>

    /** Every queued event carries the union member its kind's reader uses. */
    ghost predicate Valid()
      reads this
    {
      forall i :: 0 <= i < |queue| ==> Tagged(queue[i])
    }

    /** `initialize` succeeded: both a display and a visual are held. */
    predicate Ready()
      reads this
    {
      display.Some? && visualInfo.At?
    }

    /** No call made so far, nor the next `shutdown`, has undefined
        behaviour: the log is well paired, a held display is open and the
        visual pointer has a defined value. */
    ghost predicate Sound()
      reads this
    {
      && WellPaired(calls)
      && (display.Some? ==> display.value in OpenDisplays(calls))
      && visualInfo != Indeterminate
    }

    /** The constructor with `m_visualInfo` initialised to null as well. */
    constructor ()
      ensures display == W.None && visualInfo == Null && windows == map[] && queue == [] && calls == []
      ensures Valid() && Sound()
    {
      display, visualInfo := W.None, Null;
      windows, queue, calls := map[], [], [];
    }

    /** The constructor as written: only `m_display` is initialised. */
    constructor AsWritten()
      ensures display == W.None && visualInfo == Indeterminate && windows == map[] && queue == [] && calls == []
      ensures Valid()
    {
      display, visualInfo := W.None, Indeterminate;
      windows, queue, calls := map[], [], [];
    }

    /** `initialize` with the display pointer reset when no visual is
        found, so that a later `shutdown` does not close it again. */
    method Initialize(server: XServer) returns (ok: bool)
      modifies this`display, this`visualInfo, this`calls
      ensures ok <==> server.display.Some? && server.visual.Some?
      ensures ok ==> display == server.display && visualInfo == At(server.visual.value)
      ensures !ok ==> display == W.None
      ensures server.display.Some? ==> visualInfo == (if ok then At(server.visual.value) else Null)
      ensures server.display.None? ==> visualInfo == old(visualInfo) && calls == old(calls) + [XOpenDisplay(W.None)]
      ensures server.display.Some? ==>
        calls == old(calls) + [XOpenDisplay(server.display)] + (if ok then [] else [XCloseDisplay(server.display.value)])
      ensures old(Sound()) ==> Sound()
    {
      calls := calls + [XOpenDisplay(server.display)];
      assert calls[..|calls| - 1] == old(calls);
      if server.display.None? {
        display := W.None;
        return false;
      }
      display := server.display;
      if server.visual.None? {
        visualInfo := Null;
        calls := calls + [XCloseDisplay(server.display.value)];
        assert calls[..|calls| - 1] == old(calls) + [XOpenDisplay(server.display)];
        display := W.None;
        return false;
      }
      visualInfo := At(server.visual.value);
      return true;
    }

    /** `initialize` as written: on the visual-failure path the display is
        closed but `m_display` keeps its address. */
    method InitializeAsWritten(server: XServer) returns (ok: bool)
      modifies this`display, this`visualInfo, this`calls
      ensures ok <==> server.display.Some? && server.visual.Some?
      ensures server.display.None? ==> display == W.None && visualInfo == old(visualInfo)
      ensures server.display.Some? ==> display == server.display
      ensures server.display.Some? ==> visualInfo == (if ok then At(server.visual.value) else Null)
      ensures calls == old(calls) + [XOpenDisplay(server.display)]
        + (if server.display.Some? && server.visual.None? then [XCloseDisplay(server.display.value)] else [])
    {
      calls := calls + [XOpenDisplay(server.display)];
      if server.display.None? {
        display := W.None;
        return false;
      }
      display := server.display;
      if server.visual.None? {
        visualInfo := Null;
        calls := calls + [XCloseDisplay(server.display.value)];
        return false;
      }
      visualInfo := At(server.visual.value);
      return true;
    }

    /** `shutdown`: frees the visual and closes the display if held, and
        nulls both; a second call does nothing. */
    method Shutdown()
      modifies this`display, this`visualInfo, this`calls
      ensures display == W.None && visualInfo == Null
      ensures calls == old(calls)
        + (if old(visualInfo) != Null then [XFree(old(visualInfo))] else [])
        + (if old(display).Some? then [XCloseDisplay(old(display).value)] else [])
      ensures old(Sound()) ==> Sound()
    {
      ghost var before := calls;
      if visualInfo != Null {
        calls := calls + [XFree(visualInfo)];
        assert calls[..|calls| - 1] == before;
        visualInfo := Null;
      }
      ghost var middle := calls;
      if display.Some? {
        calls := calls + [XCloseDisplay(display.value)];
        assert calls[..|calls| - 1] == middle;
        display := W.None;
      }
    }

    /** `createWindow`: the new window's native handle is the X id, the id
        now maps to it, negative coordinates are placed at 0, a dock gets
        the dock window type, and the window is mapped. */
    method CreateWindow(config: Config, xwindow: XID) returns (window: Window)
      requires Ready()
      modifies this`windows, this`calls
      ensures fresh(window) && window.config == config && window.nativeHandle == xwindow
      ensures forall s :: window.Callback(s) == W.None
      ensures windows == old(windows)[xwindow := window]
      ensures calls == old(calls)
        + [XCreateWindow(xwindow, Placement(config.x), Placement(config.y), config.width, config.height)]
        + (if config.windowType == Dock then [XSetDockType(xwindow)] else [])
        + [XMapWindow(xwindow), XFlush]
      ensures old(Sound()) ==> Sound()
    {
      window := new Window(config);
      calls := calls + [XCreateWindow(xwindow, Placement(config.x), Placement(config.y), config.width, config.height)];
      window.SetNativeHandle(xwindow);
      windows := windows[xwindow := window];
      if config.windowType == Dock {
        AppendNeutral(calls, XSetDockType(xwindow));
        calls := calls + [XSetDockType(xwindow)];
      }
      AppendNeutral(calls, XMapWindow(xwindow));
      calls := calls + [XMapWindow(xwindow)];
      AppendNeutral(calls, XFlush);
      calls := calls + [XFlush];
      AppendNeutral(old(calls), XCreateWindow(xwindow, Placement(config.x), Placement(config.y), config.width, config.height));
    }

    /** `destroyWindow`: only the window's own id leaves the registry. */
    method DestroyWindow(window: Window)
      requires display.Some?
      modifies this`windows, this`calls
      ensures windows == old(windows) - {window.nativeHandle}
      ensures calls == old(calls) + [XDestroyWindow(window.nativeHandle)]
      ensures old(Sound()) ==> Sound()
    {
      AppendNeutral(calls, XDestroyWindow(window.nativeHandle));
      windows := windows - {window.nativeHandle};
      calls := calls + [XDestroyWindow(window.nativeHandle)];
    }

    /** `pumpEvents`: drains the pending native events in arrival order and
        appends one event per configure, motion, button or key event to the
        queue, which keeps its old contents as a prefix. */
    method PumpEvents(pending: seq<XEvent>)
      requires display.Some? && Valid()
      modifies this`queue
      ensures Valid()
      ensures queue == old(queue) + Translated(pending, windows)
    {
      var i := 0;
      while i < |pending|
        invariant 0 <= i <= |pending|
        invariant queue == old(queue) + Translated(pending[..i], windows)
        invariant Valid()
      {
        PumpOne(pending[i]);
        TranslatedStep(pending, i, windows);
        i := i + 1;
      }
      assert pending[..i] == pending;
    }

    /** One pass of the `pumpEvents` loop: the `switch` on the native type. */
    method PumpOne(xevent: XEvent)
      requires Valid()
      modifies this`queue
      ensures Valid()
      ensures queue == old(queue) + AsSeq(Translate(xevent, windows))
    {
      var window: Window? := null;
      if xevent.window in windows {
        window := windows[xevent.window];
      }
      match xevent {
        case ConfigureNotify(_, width, height) =>
          queue := queue + [Event(WindowResize, window, Size(ToU32(width), ToU32(height)))];
        case MotionNotify(_, mx, my) =>
          queue := queue + [Event(MouseMove, window, Mouse(mx as real, my as real))];
        case ButtonPress(_, button) =>
          queue := queue + [Event(MouseDown, window, Button(ToI32(button) as MouseButton))];
        case KeyPress(_, code, state) =>
          queue := queue + [Event(KeyDown, window, Key(ConvertKeyCode(code), ConvertModifiers(state), false))];
        case OtherEvent(_) =>
      }
    }

    /** `hasEvents`. */
    function HasEvents(): (r: bool)
      reads this
      ensures r <==> queue != []
    {
      |queue| > 0
    }

    /** `nextEvent`: the front of the queue, which loses it; on an empty
        queue the `None` event, and the queue stays empty. */
    method NextEvent() returns (event: Event)
      requires Valid()
      modifies this`queue
      ensures Valid() && Tagged(event)
      ensures old(queue) == [] ==> event == Event(EventType.None) && queue == []
      ensures old(queue) != [] ==> event == old(queue)[0] && queue == old(queue)[1..]
    {
      if |queue| == 0 {
        return Event(EventType.None);
      }
      event := queue[0];
      queue := queue[1..];
    }

    /** `createGLContext`: creates a context for the window and makes it current. */
    method CreateGLContext(window: Window, context: nat) returns (result: nat)
      requires Ready()
      modifies this`calls
      ensures result == context
      ensures calls == old(calls) + [GlXCreateContext(context), GlXMakeCurrent(window.nativeHandle, context)]
      ensures old(Sound()) ==> Sound()
    {
      AppendNeutral(calls, GlXCreateContext(context));
      calls := calls + [GlXCreateContext(context)];
      AppendNeutral(calls, GlXMakeCurrent(window.nativeHandle, context));
      calls := calls + [GlXMakeCurrent(window.nativeHandle, context)];
      result := context;
    }

    /** `destroyGLContext`. */
    method DestroyGLContext(context: nat)
      requires display.Some?
      modifies this`calls
      ensures calls == old(calls) + [GlXDestroyContext(context)]
      ensures old(Sound()) ==> Sound()
    {
      AppendNeutral(calls, GlXDestroyContext(context));
      calls := calls + [GlXDestroyContext(context)];
    }

    /** `makeCurrent`. */
    method MakeCurrent(window: Window, context: nat)
      requires display.Some?
      modifies this`calls
      ensures calls == old(calls) + [GlXMakeCurrent(window.nativeHandle, context)]
      ensures old(Sound()) ==> Sound()
    {
      AppendNeutral(calls, GlXMakeCurrent(window.nativeHandle, context));
      calls := calls + [GlXMakeCurrent(window.nativeHandle, context)];
    }

    /** `swapBuffers`. */
    method SwapBuffers(window: Window)
      requires display.Some?
      modifies this`calls
      ensures calls == old(calls) + [GlXSwapBuffers(window.nativeHandle)]
      ensures old(Sound()) ==> Sound()
    {
      AppendNeutral(calls, GlXSwapBuffers(window.nativeHandle));
      calls := calls + [GlXSwapBuffers(window.nativeHandle)];
    }
  }

  /** The constructor and `initialize` as written, a visual that cannot be
      found, then `shutdown` (from the destructor): display 1 is closed twice. */
  method DoubleCloseAsWritten() returns (calls: seq<XCall>)
    ensures calls == [XOpenDisplay(W.Some(1)), XCloseDisplay(1), XCloseDisplay(1)]
    ensures !WellPaired(calls)
  {
    var platform := new X11Platform.AsWritten();
    var ok := platform.InitializeAsWritten(XServer(W.Some(1), W.None));
    platform.Shutdown();
    calls := platform.calls;
    assert calls[..2] == [XOpenDisplay(W.Some(1)), XCloseDisplay(1)];
    assert calls[..2][..1] == [XOpenDisplay(W.Some(1))];
    assert [XOpenDisplay(W.Some(1))][..0] == [];
  }

  /** The constructor as written, a display that cannot be opened, then
      `shutdown`: the uninitialised visual pointer is passed to `XFree`. */
  method FreeIndeterminateAsWritten() returns (calls: seq<XCall>)
    ensures calls == [XOpenDisplay(W.None), XFree(Indeterminate)]
    ensures !WellPaired(calls)
  {
    var platform := new X11Platform.AsWritten();
    var ok := platform.InitializeAsWritten(XServer(W.None, W.None));
    platform.Shutdown();
    calls := platform.calls;
  }

  /** With the corrections, any answer of the X server followed by
      `shutdown` (even twice) leaves a log without double close or bad free. */
  method ShutdownAfterInitialize(server: XServer) returns (calls: seq<XCall>)
    ensures WellPaired(calls)
    ensures |calls| >= 1 && calls[0] == XOpenDisplay(server.display)
  {
    var platform := new X11Platform();
    var ok := platform.Initialize(server);
    platform.Shutdown();
    platform.Shutdown();
    calls := platform.calls;
  }
}
